=== FILE: README.md ===
# fr: a model of the repository scanner

`fr` walks a directory tree with a pool of threads. It finds the directories
that hold a `.git` directory and records each one's path relative to the scan
root, with its current branch. It prints each repository's basename, cut to a
width, beside the branch; in clean mode it prints the relative path under
`/home/yrwq/` instead, with no branch. This project models the scanner's core from
`main.c`:

- the shared work queue (`dir_queue_t`) and the protocol that ends the walk. Its
  parts are the active-worker count, the pending count, the one-way `shutdown`
  latch, and the credit `main` holds while it expands the root itself;
- the expansion of one directory (`process_directory`), over an abstract file
  system;
- the result vector (`repo_vec_t`) and `vec_push`'s growth 0 → 16 → ×2, with
  every allocation allowed to fail;
- the path helpers `is_dot_dir`, `is_git_dir_name`, `build_path` and `is_repo`,
  and the name `vec_print` shows for a repository;
- the command line (`parse_args`) and the way `main` ties everything together.

Modules:

- `Paths` (paths.dfy): fixed-size path buffers and the file system, which is a
  finite map from path to inode. A directory inode holds its `readdir` entries
  and their `d_type` hints.
- `WorkQueue` (work_queue.dfy): each queue operation runs under the queue's
  mutex, so each is one atomic step. A pure step function on `QState` gives
  each step its meaning. The class `DirQueue` performs the step in place. A pop
  that would wait on the condition variable returns `WouldBlock`. The credit
  discipline is a transition system over event traces, so every interleaving
  of the threads is covered.
- `RepoVector` (repo_vec.dfy): the parallel `items`/`infos` arrays as a class
  over `array`s, with `realloc` as copy-to-fresh.
- `Walk` (walk.dfy): `process_directory` as a loop pushing into the queue and
  the vector, specified by a function on entries. `Visits` is the reference
  walk from the root. `Scan` is a sequential run of the scanner: `main`
  expands the root and releases its credit, then one worker repeats pop,
  expand and finish until the queue reports Done. A proper tree (`Paths.ProperTree`) is
  one whose directories list each name once and no name holding '/', as
  readdir does; on it nothing is visited or recorded twice.
- `Cli` (cli.dfy): `parse_args` as a loop, specified by a recursive state
  machine, with C's `atoi`.
- `Scanner` (scanner.dfy): `main`'s exit statuses and its configuration of the
  walk.

Two behaviours of the code that its usage text ("max depth to search",
main.c:349) does not suggest, which the model keeps:

- **Depth limit.** The code tests the children of a directory at depth *k* for
  `.git` before it applies the depth guard. So with `-d k`, a repository nested
  *k*+1 levels below the root is still found; the limit only stops descending
  (`VisitsShape`, `DepthZeroStaysAtRoot`).
- **Failed allocations.** When `queue_push`'s `malloc` fails, that subtree is
  silently dropped (`PushStep`). When `vec_push`'s `strdup` or either
  `realloc` fails, the repository already found is silently dropped
  (`RepoVec.Push`, with `Stored` false). Nothing else happens in either case:
  no retry and no error.

## Model

| member | source | states |
|---|---|---|
| Paths.Truncate | main.c:399 | a `%s` copy into a buffer of `size` bytes keeps a prefix shorter than `size`, and the whole string when it fits |
| Paths.IsDotDir | main.c:266-269 | for NUL-free names, true exactly for "." and ".." |
| Paths.BuildPath | main.c:276-281 | succeeds exactly when dir + "/" + name fits the buffer, and the result is dir, '/', name |
| Paths.OpenDir | main.c:293-294 | definition, no contract of its own: opendir yields a readable directory's entries and fails otherwise; what a failed opendir means for the walk is stated by Walk.ExpandDir |
| Paths.IsGitDirName | main.c:271-273 | definition: the name is ".git"; its use is stated by Walk.EntryEffectRule |
| Paths.IsDir | main.c:260-263 | definition: stat succeeds and the inode is a directory; its use is stated by Paths.IsRepo and Walk.EntryEffectRule |
| Paths.DirnameOfChild | main.c:310-311 | the directory part of a built child path is the directory it was built in |
| Paths.IsRepo | main.c:284-288 | true exactly when path + "/.git" fits PATH_MAX and is a directory |
| Paths.Basename | main.c:157-158 | the part after the last '/': a '/'-free suffix, preceded by '/' when shorter than the item |
| Paths.BasenameAfterSlash | main.c:157-158 | any '/'-free suffix that follows a '/' (or is the whole string) is the basename |
| Paths.BasenameOfBuiltPath | main.c:157-158 | the basename of a built child path is the entry's name |
| WorkQueue.PushStep | main.c:187-205 | on success the task joins the tail, earlier tasks keep their order, and pending grows by one; on a malloc failure nothing changes; workers and latch are untouched |
| WorkQueue.PopStep | main.c:207-235 | Done iff the latch is set or the queue is quiescent, which sets it; would block iff empty with work in flight; otherwise hands out the head, drops only it, active +1, pending −1 |
| WorkQueue.FinishStep | main.c:237-249 | one worker fewer; the latch is set exactly when that leaves no worker and no task (or was set already) |
| WorkQueue.ReleaseStep | main.c:448-451 | the scanner's credit is given back: one worker fewer, the latch untouched |
| WorkQueue.DirQueue.constructor | main.c:177-185 | empty queue, one active worker (the scanner's credit), nothing pending, latch clear |
| WorkQueue.DirQueue.Push | main.c:187-205 | the queue's new state is PushStep of the old, and pending still counts the list |
| WorkQueue.DirQueue.Pop | main.c:207-235 | result and new state are PopStep of the old state |
| WorkQueue.DirQueue.FinishWork | main.c:237-249 | the new state is FinishStep of the old |
| WorkQueue.DirQueue.ReleaseInitialCredit | main.c:448-451 | the new state is ReleaseStep of the old |
| WorkQueue.Enabled | main.c:187-249 | definition: who may perform a step (pushes and finishes need a held credit, the release is the scanner's once, any thread may pop); used by WorkQueue.StepKeepsProtocol |
| WorkQueue.Next | main.c:187-249 | definition: a step of the threads, applying PushStep, PopStep, FinishStep or ReleaseStep (main.c:448-451) to the queue and updating the credits; characterised by WorkQueue.StepKeepsProtocol |
| WorkQueue.StartObeysProtocol | main.c:182 | right after queue_init the counters match the credits, and the scanner holds the only one |
| WorkQueue.StepKeepsProtocol | main.c:187-249 | every operation by a thread allowed to perform it keeps counters = credits, pending = list length, and latch ⇒ nothing queued or held |
| WorkQueue.PopVerdicts | main.c:210-223 | under the protocol a pop says Done only when no credit is held and nothing is queued, always says Done then, and would block only while a credit is held |
| WorkQueue.RunKeepsProtocol | main.c:177-249 | the protocol holds after any legal interleaving |
| WorkQueue.NoDoneBeforeRelease | main.c:182 | while the scanner still holds its credit, no pop in any interleaving reports Done |
| WorkQueue.ShutdownIsLatched | main.c:210 | once set, the latch stays set and every later pop reports Done |
| WorkQueue.RunsFromStart | main.c:438-451 | from queue_init, every run keeps the protocol, and no pop reports Done before the credit release |
| RepoVector.InfoFor | main.c:117-123 | empty branch in clean mode; "HEAD" when the lookup fails; otherwise the branch name whole when it fits 256 bytes, and else exactly its first 255 characters (the snprintf at main.c:80) |
| RepoVector.NextCap | main.c:128 | the new capacity is larger, at least 16, and keeps the 16·2^k shape |
| RepoVector.Realloc | main.c:129 | a fresh block of the new size whose prefix is the old contents |
| RepoVector.RepoVec.constructor | main.c:95-101 | an empty vector with capacity 0 |
| RepoVector.RepoVec.Push | main.c:113-152 | appends exactly one record last when strdup and (if full) both reallocs succeed, and otherwise keeps the records; capacity grows only by NextCap and count ≤ cap is kept |
| RepoVector.RepoVec.Store | main.c:147-149 | the entry goes into the slot after the last record, which appends it |
| RepoVector.RepoVec.Grow | main.c:127-145 | the capacity changes only when both reallocs succeed; the stored entries survive either way |
| RepoVector.Zip | main.c:147-148 | definition: the two arrays paired slot by slot, the abstraction through which RepoVec.Push and RepoVec.Store are stated; its ensures only unfold the comprehension for the verifier, and RepoVector.ZipAppend characterises it |
| RepoVector.Stored | main.c:114-143 | definition: vec_push stores its entry iff strdup succeeds and there is room or both reallocs succeed; RepoVec.Push's contract is stated in these terms |
| RepoVector.ZipAppend | main.c:147-148 | writing both parallel slots appends one record |
| RepoVector.DisplayName | main.c:157-168 | the basename unchanged iff width is negative or it fits; otherwise a prefix of it followed by "..": exactly width characters (width − 2 kept) when width ≥ 2, and the whole basename followed by ".." when width is 0 or 1, printf ignoring the negative precision; never contains '/' |
| RepoVector.Shorten | main.c:164-167 | the same truncation rule on the basename itself: unchanged iff it fits or width is negative, else exactly width characters for width ≥ 2 and base + ".." for width 0 or 1; adds no character but '.' |
| RepoVector.ShortenAddsNoSlash | main.c:157-165 | shortening a '/'-free basename leaves it '/'-free |
| Walk.DepthAllows | main.c:321 | definition: the guard `max_depth == -1 \|\| depth < max_depth`; stated through Walk.EntryEffectRule and Walk.VisitsShape |
| Walk.IsDirectoryEntry | main.c:300-308 | definition: d_type says directory, or is unknown and stat says so; stated through Walk.EntryEffectRule |
| Walk.Candidate | main.c:297-311 | definition: not ".", ".." or ".git", the child path fits, and it is a directory; stated through Walk.EntryEffectRule |
| Walk.EntryEffect | main.c:297-323 | definition: one iteration of the readdir loop in the code's order of tests; characterised by Walk.EntryEffectRule |
| Walk.BeneathTransitive | main.c:276-281 | a path beneath a path beneath the root is beneath the root |
| Walk.EntryEffectRule | main.c:297-323 | an entry is recorded iff it is a directory other than ".", ".." and ".git" whose path fits and that is a repo, under its path minus the root prefix and separator; it is enqueued at depth+1 iff it is such a directory, not a repo, and the depth guard allows |
| Walk.ExpandEntries | main.c:296-324 | the tasks produced lie beneath the directory, fit PATH_MAX, are one level deeper and are not repos; there are tasks only when the depth guard allows |
| Walk.EntryTaken | main.c:296-324 | each entry's record or task is among the results |
| Walk.ExpansionTakesEveryEntry | main.c:296-324 | every entry that should be recorded or enqueued is |
| Walk.ExpansionTakesNothingElse | main.c:296-324 | every task and record comes from some entry's effect |
| Walk.BuildPathBeneath | main.c:310-311 | a built child path lies beneath its directory |
| Walk.ExpandDir | main.c:292-326 | an unopenable directory yields nothing; child tasks are beneath, fit, are one level deeper, are not repos, and exist only under the depth guard |
| Walk.AfterAppend | main.c:315-322 | an entry's effect on the queue and the vector only appends |
| Walk.ProcessDirectory | main.c:292-326 | the queue gains exactly the directory's child tasks in readdir order, the vector exactly its records; workers and latch unchanged |
| Walk.ProcessEntry | main.c:297-323 | one entry appends its task to the queue or its record to the vector, as the rule says |
| Walk.ExpandOneMore | main.c:296 | one more readdir entry appends that entry's effect |
| Walk.Visits | main.c:292-341 | the reference walk from a directory only visits well-formed tasks |
| Walk.VisitsAll | main.c:332-341 | the walk from a queue only visits well-formed tasks |
| Walk.VisitsAllAppend | main.c:332-341 | the walk from a concatenated queue is the two walks in turn |
| Walk.FoundInAppend | main.c:315 | the records of two visit lists are the records of each in turn |
| Walk.FoundInCons | main.c:315 | the records of a list of visits start with those of its first directory |
| Walk.VisitsShape | main.c:313-323 | the walk starts at its directory, never enters a repo, only visits directories beneath it and deeper, and never beyond the depth limit |
| Walk.VisitsAllShape | main.c:313-323 | the same for the walk from a queue of such tasks |
| Walk.DepthZeroStaysAtRoot | main.c:321 | with -d 0 only the root is visited, yet the repos among its children are found |
| Walk.RecordIsRelativeToRoot | main.c:315 | root + "/" + recorded path is the child's full path, and its basename is the entry's name |
| Walk.RelativeChild | main.c:315 | stripping base_len+1 characters from a path beneath the root leaves the relative path |
| Walk.VisitsUnfold | main.c:337 | the walk from a directory is the directory, then the walk from its children; likewise its records |
| Walk.NextQueue | main.c:333-337 | the queue after one worker pass, well-formed |
| Walk.WalkStep | main.c:333-340 | one pass removes the head from what is left to visit, and what is left shrinks |
| Walk.FoundStep | main.c:337 | one pass records the head's repos and leaves the rest to be found |
| Walk.AccountStep | main.c:332-341 | visited + still to visit, and recorded + still to find, stay the full walk and its records across a pass |
| Walk.WorkerPass | main.c:332-341 | done iff the queue was empty, and then the latch is set; otherwise the head is expanded, the queue becomes NextQueue and the records grow by its finds |
| Walk.Drain | main.c:332-341 | the worker loop ends with the latch set, having visited the whole walk and recorded all its repos |
| Walk.SingleQueue | main.c:332-341 | the walk from a one-task queue is that task's walk, and one pass leaves exactly its children |
| Walk.RootAccount | main.c:446 | after the scanner expands the root, the account holds with the root visited |
| Walk.Scan | main.c:438-455 | a sequential run ends with shutdown set, having visited exactly the walk from the root and recorded exactly its repositories, with multiplicities; when readdir lists each name once and no name holds '/', no directory is visited twice and no repository is recorded twice |
| Walk.Apart | main.c:310-311 | nothing lies both at or inside one of two paths neither of which lies inside the other |
| Walk.SiblingsApart | main.c:310-311 | children of one directory with different '/'-free names lie apart |
| Walk.ExpandEntriesSeparated | main.c:296-324 | the tasks queued from distinct '/'-free entries lie apart from one another, each being the directory plus an entry's name |
| Walk.ChildrenSeparated | main.c:292-326 | on a proper tree the tasks one directory queues lie apart from one another |
| Walk.SeparatedTail | main.c:332-341 | the rest of a queue of tasks that lie apart still lie apart |
| Walk.CoveredConcat | main.c:332-341 | what lies inside the first of tasks that lie apart differs from what lies inside the others |
| Walk.VisitsApart | main.c:292-341 | on a proper tree the walk from a directory visits each path at most once, all at or inside the directory |
| Walk.VisitsAllApart | main.c:332-341 | the walks from tasks that lie apart visit each path at most once, each inside one of the tasks |
| Walk.RecordsNamedExtend | main.c:296 | a record named by one of the first entries is named by one of all the entries |
| Walk.EntriesRecordsApart | main.c:296-324 | the records of distinct '/'-free entries have distinct paths, each the path of one entry relative to the root |
| Walk.LastRecordApart | main.c:313-318 | the last entry's record, if any, keeps the records distinct |
| Walk.RecordAppendApart | main.c:315 | a record under a name not recorded before keeps the records distinct |
| Walk.DirRecordsApart | main.c:292-326 | on a proper tree one directory's records have distinct paths, all of repositories directly inside it |
| Walk.FoundInApart | main.c:315 | the records of distinct visited directories have distinct paths |
| Walk.WalkReportsOnce | main.c:292-341 | on a proper tree the walk from the root visits each directory once and records each repository once |
| Walk.ScanReportsOnce | main.c:438-455 | whatever order a run visits and records in, on a proper tree it visits no directory twice and records no repository twice |
| Walk.NoDupByMultiset | main.c:332-341 | a reordering of a sequence without repeats has no repeats |
| Walk.RecordPathsByMultiset | main.c:315 | a reordering of records with distinct paths has distinct paths |
| Cli.SkipSpace | main.c:370 | atoi's leading white space: a suffix, all that was skipped is space, and it starts with a non-space |
| Cli.LeadingDigits | main.c:370 | atoi's digits: the longest all-digit prefix |
| Cli.AtoiSign | main.c:370-371 | atoi is negative only for a '-' followed by a digit, after white space; text with no sign or digit reads 0 |
| Cli.Decimal | main.c:370 | decimal text is a non-empty string of digits |
| Cli.DecimalValue | main.c:370 | the digits' value is the number |
| Cli.AllDigitsLead | main.c:370 | a string of digits is all leading digits |
| Cli.AtoiDecimal | main.c:370 | atoi reads back n and −n from their decimal text |
| Cli.Atoi | main.c:370-381 | definition of C's atoi: white space, an optional sign, the leading digits; characterised by Cli.AtoiSign and Cli.AtoiDecimal |
| Cli.ParseFrom | main.c:364-402 | definition: the argument loop as a recursive state machine; characterised by Cli.ParseFromShape, Cli.DepthOption and Cli.DirectoryArguments |
| Cli.Finish | main.c:404-412 | definition: the $HOME default after the loop; characterised by Cli.HomeNeededOnlyWithoutDirectory |
| Cli.Parse | main.c:356-415 | definition: the state machine from the defaults; characterised by Cli.ParsedShape, Cli.NoArguments and Cli.HelpOnlyWhenAsked |
| Cli.ParseArgs | main.c:356-415 | the loop returns exactly the state machine's outcome |
| Cli.ParsedShape | main.c:358-412 | a successful parse has depth ≥ −1, mode 0 or 1, and a path that fits PATH_MAX; the path is empty only if $HOME is "" |
| Cli.ParseFromShape | main.c:364-412 | the same from any point in the loop |
| Cli.HelpOnlyWhenAsked | main.c:386-388 | the help outcome requires a -h or --help argument |
| Cli.HomeNeededOnlyWithoutDirectory | main.c:404-412 | the HOME error arises only when HOME is unset, and never once a directory was given |
| Cli.NoArguments | main.c:358-362 | with no arguments: depth −1, width 10, mode 0, path $HOME; an error without HOME |
| Cli.DepthOption | main.c:365-375 | -d n sets the limit to n; -d −n (n > 0) is an error; a trailing -d is an error |
| Cli.DirectoryArguments | main.c:389-401 | a directory argument is the path; a second one is an error; an unknown -x is an error |
| Scanner.ConfigFor | main.c:431-433 | definition, no contract of its own: base_len is the canonical root's length, the depth limit is the option, and branches are looked up only in mode 0; Scanner.RunScanner states the walk it configures |
| Scanner.RunScanner | main.c:417-462 | help exits 0 and errors exit 1 before any scan; an unresolved directory exits 0; otherwise the records are those of the walk from the canonical root, each repository once on a proper tree |

## Left out

- Threads: the pthread mutex and condition variable, and the 8-thread pool.
  Each queue operation is one atomic step. All interleavings are covered at
  the level of the queue protocol (`WorkQueue.RunsFromStart`), but the
  end-to-end walk (`Walk.Scan`) is proved for one worker only.
- The libgit2 calls in `get_repo_info`, and `git_libgit2_init`/`shutdown`.
  These are foreign calls; the lookup is a parameter that returns
  `OpenFailed`, `NoHead` or the branch's short name.
- The real file system: `opendir`/`readdir`/`stat`/`realpath` are replaced by a
  finite map from path to inode, and realpath by a parameter. `readdir` order
  is the order of the entries in the inode.
- Output: `printf`, `print_usage`, the column padding, and the hard-coded
  `/home/yrwq/` prefix that clean mode prints in front of each path. Only the
  name computation of `vec_print` is modelled (`DisplayName`).
- `vec_free` and `queue_destroy`, which only free memory.
- Memory layout: the queue's linked list is a sequence, and `free` is not
  modelled.
- Walk.ProcessDirectory: allocations are taken to succeed. The failure paths
  are modelled one level down, in `DirQueue.Push` and `RepoVec.Push`.
- Cli.Atoi: the overflow of C's `atoi` on out-of-range digit strings is not
  modelled; the value is the unbounded integer of the digits.
- Characters stand for bytes: every length the code measures in bytes is a
  count of characters here (PATH_MAX in `Truncate`, `BuildPath` and `IsRepo`,
  the 256-byte branch buffer in `InfoFor`, `base_len`, and the width test and
  precision in `DisplayName`). The model agrees with the program on names
  whose characters are single bytes; on others it does not (with `-w 10`, the
  6-character, 12-byte UTF-8 basename of "x/éééééé" is cut by the program
  and kept whole by the model).
- Strings are NUL-free; a C string ends at its first NUL, and arguments and
  names containing NUL are not considered.
- `size_t`/`int` arithmetic: counters, capacities and depths are unbounded
  integers. The `(size_t)width` cast is modelled only as "a negative width
  never truncates".
- Walk.Scan: the multiset equalities do not fix the order of the records,
  which in the threaded program depends on scheduling.

=== FILE: cli.dfy ===
/** The command line (parse_args): options -d, -w, -c/--clean, -h/--help and
    at most one directory, which defaults to $HOME. The environment variable
    is a parameter: None when it is not set. */
module Cli {
  import opened Paths

  /** args_t: the directory to scan, the depth limit (-1 for none), the name
      width for printing, and the mode (0 normal, 1 clean). */
  datatype Args = Args(path: string, maxDepth: int, maxWidth: int, mode: int)

  datatype ParseError =
    | MissingArgument(option: string)
    | NegativeDepth
    | UnknownOption(option: string)
    | MultipleDirectories
    | HomeNotSet

  /** parse_args returns 0 (Parsed), 1 (Help) or -1 (Failed). */
  datatype ParseOutcome = Parsed(args: Args) | Help | Failed(error: ParseError)

  /** The defaults parse_args starts from. */
  const Defaults: Args := Args("", -1, 10, 0)

  /* atoi as the C library defines it: leading white space, an optional sign,
     then as many decimal digits as follow; no digits give 0. */

  predicate IsSpace(c: char)
  {
    c == ' ' || ('\t' <= c <= '\r')
  }

  predicate IsDigit(c: char)
  {
    '0' <= c <= '9'
  }

  /** `s` without its leading white space. */
  function SkipSpace(s: string): (r: string)
    ensures |r| <= |s| && r == s[|s| - |r|..]
    ensures r == [] || !IsSpace(r[0])
    ensures forall k :: 0 <= k < |s| - |r| ==> IsSpace(s[k])
    decreases |s|
  {
    if s != [] && IsSpace(s[0]) then SkipSpace(s[1..]) else s
  }

  /** The longest prefix of `s` made of digits. */
  function LeadingDigits(s: string): (r: string)
    ensures r <= s
    ensures forall k :: 0 <= k < |r| ==> IsDigit(r[k])
    ensures |r| < |s| ==> !IsDigit(s[|r|])
    decreases |s|
  {
    if s != [] && IsDigit(s[0]) then [s[0]] + LeadingDigits(s[1..]) else []
  }

  /** The value of a string of digits, most significant first. */
  function DigitsValue(ds: string): nat
    requires forall k :: 0 <= k < |ds| ==> IsDigit(ds[k])
    decreases |ds|
  {
    if ds == [] then 0
    else
      assert IsDigit(ds[|ds| - 1]);
      DigitsValue(ds[..|ds| - 1]) * 10 + (ds[|ds| - 1] as int - '0' as int)
  }

  function Atoi(s: string): int
  {
    var t := SkipSpace(s);
    if t != [] && t[0] == '-' then -(DigitsValue(LeadingDigits(t[1..])) as int)
    else if t != [] && t[0] == '+' then DigitsValue(LeadingDigits(t[1..]))
    else DigitsValue(LeadingDigits(t))
  }

  /** Only a minus sign, after white space and before a digit other than a
      run of zeros, makes atoi negative -- so `-d` rejects exactly such
      values. Text with no digits reads as 0. */
  lemma AtoiSign(s: string)
    ensures Atoi(s) < 0 ==>
      var t := SkipSpace(s);
      |t| >= 2 && t[0] == '-' && IsDigit(t[1])
    ensures (var t := SkipSpace(s); t == [] || (t[0] != '-' && t[0] != '+' && !IsDigit(t[0]))) ==> Atoi(s) == 0
  {
  }

  /** The decimal text of a natural number, as printf's "%d" writes it. */
  function Decimal(n: nat): (r: string)
    ensures |r| > 0 && forall k :: 0 <= k < |r| ==> IsDigit(r[k])
    decreases n
  {
    if n < 10 then [('0' as int + n) as char]
    else Decimal(n / 10) + [('0' as int + n % 10) as char]
  }

  lemma {:induction false} DecimalValue(n: nat)
    ensures DigitsValue(Decimal(n)) == n
    decreases n
  {
    var d := Decimal(n);
    if n >= 10 {
      DecimalValue(n / 10);
      assert d[..|d| - 1] == Decimal(n / 10);
    }
  }

  lemma {:induction false} AllDigitsLead(ds: string)
    requires forall k :: 0 <= k < |ds| ==> IsDigit(ds[k])
    ensures LeadingDigits(ds) == ds
    decreases |ds|
  {
    if ds != [] {
      AllDigitsLead(ds[1..]);
    }
  }

  /** atoi reads back what "%d" writes, for either sign. */
  lemma AtoiDecimal(n: nat)
    ensures Atoi(Decimal(n)) == n
    ensures Atoi("-" + Decimal(n)) == -(n as int)
  {
    var d := Decimal(n);
    DecimalValue(n);
    AllDigitsLead(d);
    assert SkipSpace(d) == d by {
      assert !IsSpace(d[0]);
    }
    var m := "-" + d;
    assert m[0] == '-' && m[1..] == d;
    assert SkipSpace(m) == m by {
      assert !IsSpace(m[0]);
    }
  }

  /** The state machine of parse_args' loop, from argument `i` on with the
      options so far in `acc`. -d and -w take the next argument whatever it
      looks like; -h stops at once; any other argument starting with '-' is
      unknown; anything else is the directory, of which there may be only
      one (an empty argument leaves the directory unset). */
  function ParseFrom(argv: seq<string>, i: nat, acc: Args, home: Option<string>): ParseOutcome
    decreases |argv| - i
  {
    if i >= |argv| then Finish(acc, home)
    else
      var a := argv[i];
      if a == "-d" then
        if i + 1 >= |argv| then Failed(MissingArgument("-d"))
        else if Atoi(argv[i + 1]) < 0 then Failed(NegativeDepth)
        else ParseFrom(argv, i + 2, acc.(maxDepth := Atoi(argv[i + 1])), home)
      else if a == "-w" then
        if i + 1 >= |argv| then Failed(MissingArgument("-w"))
        else ParseFrom(argv, i + 2, acc.(maxWidth := Atoi(argv[i + 1])), home)
      else if a == "-c" || a == "--clean" then ParseFrom(argv, i + 1, acc.(mode := 1), home)
      else if a == "-h" || a == "--help" then Help
      else if At(a, 0) == '-' then Failed(UnknownOption(a))
      else if acc.path != "" then Failed(MultipleDirectories)
      else ParseFrom(argv, i + 1, acc.(path := Truncate(a, PATH_MAX)), home)
  }

  /** After the loop: with no directory given, $HOME is used, and its absence
      is an error. */
  function Finish(acc: Args, home: Option<string>): ParseOutcome
  {
    if acc.path != "" then Parsed(acc)
    else match home
      case None => Failed(HomeNotSet)
      case Some(h) => Parsed(acc.(path := Truncate(h, PATH_MAX)))
  }

  /** parse_args: argv[0] is the program name. */
  function Parse(argv: seq<string>, home: Option<string>): ParseOutcome
  {
    ParseFrom(argv, 1, Defaults, home)
  }

  /** parse_args as the C code runs it: one loop over argv updating the
      options in place, returning as soon as the outcome is known. */
  method ParseArgs(argv: seq<string>, home: Option<string>) returns (r: ParseOutcome)
    ensures r == Parse(argv, home)
  {
    var args := Defaults;
    var i := 1;
    while i < |argv|
      invariant i >= 1
      invariant ParseFrom(argv, i, args, home) == Parse(argv, home)
      decreases |argv| - i
    {
      var a := argv[i];
      if a == "-d" {
        if i + 1 >= |argv| {
          return Failed(MissingArgument("-d"));
        }
        args := args.(maxDepth := Atoi(argv[i + 1]));
        if args.maxDepth < 0 {
          return Failed(NegativeDepth);
        }
        i := i + 2;
      } else if a == "-w" {
        if i + 1 >= |argv| {
          return Failed(MissingArgument("-w"));
        }
        args := args.(maxWidth := Atoi(argv[i + 1]));
        i := i + 2;
      } else if a == "-c" || a == "--clean" {
        args := args.(mode := 1);
        i := i + 1;
      } else if a == "-h" || a == "--help" {
        return Help;
      } else if At(a, 0) == '-' {
        return Failed(UnknownOption(a));
      } else {
        if args.path != "" {
          return Failed(MultipleDirectories);
        }
        args := args.(path := Truncate(a, PATH_MAX));
        i := i + 1;
      }
    }
    if args.path == "" {
      if home.None? {
        return Failed(HomeNotSet);
      }
      args := args.(path := Truncate(home.value, PATH_MAX));
    }
    return Parsed(args);
  }

  /** What a successful parse yields: a depth limit of -1 or more, mode 0 or
      1, a directory that fits a path buffer, and an empty directory only when
      $HOME was set to the empty string. */
  lemma ParsedShape(argv: seq<string>, home: Option<string>)
    ensures Parse(argv, home).Parsed? ==>
      var a := Parse(argv, home).args;
      && a.maxDepth >= -1
      && (a.mode == 0 || a.mode == 1)
      && |a.path| < PATH_MAX
      && (a.path == "" ==> home == Some(""))
  {
    ParseFromShape(argv, 1, Defaults, home);
  }

  lemma {:induction false} ParseFromShape(argv: seq<string>, i: nat, acc: Args, home: Option<string>)
    requires acc.maxDepth >= -1 && (acc.mode == 0 || acc.mode == 1) && |acc.path| < PATH_MAX
    ensures ParseFrom(argv, i, acc, home).Parsed? ==>
      var a := ParseFrom(argv, i, acc, home).args;
      && a.maxDepth >= -1
      && (a.mode == 0 || a.mode == 1)
      && |a.path| < PATH_MAX
      && (a.path == "" ==> home == Some(""))
    decreases |argv| - i
  {
    if i < |argv| {
      var a := argv[i];
      if a == "-d" {
        if i + 1 < |argv| && Atoi(argv[i + 1]) >= 0 {
          ParseFromShape(argv, i + 2, acc.(maxDepth := Atoi(argv[i + 1])), home);
        }
      } else if a == "-w" {
        if i + 1 < |argv| {
          ParseFromShape(argv, i + 2, acc.(maxWidth := Atoi(argv[i + 1])), home);
        }
      } else if a == "-c" || a == "--clean" {
        ParseFromShape(argv, i + 1, acc.(mode := 1), home);
      } else if a == "-h" || a == "--help" {
      } else if At(a, 0) == '-' {
      } else if acc.path == "" {
        ParseFromShape(argv, i + 1, acc.(path := Truncate(a, PATH_MAX)), home);
      }
    }
  }

  /** Help is the outcome only when some argument asks for it. */
  lemma {:induction false} HelpOnlyWhenAsked(argv: seq<string>, i: nat, acc: Args, home: Option<string>)
    ensures ParseFrom(argv, i, acc, home).Help? ==>
      exists k :: i <= k < |argv| && (argv[k] == "-h" || argv[k] == "--help")
    decreases |argv| - i
  {
    if i < |argv| {
      var a := argv[i];
      if a == "-d" {
        if i + 1 < |argv| && Atoi(argv[i + 1]) >= 0 {
          HelpOnlyWhenAsked(argv, i + 2, acc.(maxDepth := Atoi(argv[i + 1])), home);
        }
      } else if a == "-w" {
        if i + 1 < |argv| {
          HelpOnlyWhenAsked(argv, i + 2, acc.(maxWidth := Atoi(argv[i + 1])), home);
        }
      } else if a == "-c" || a == "--clean" {
        HelpOnlyWhenAsked(argv, i + 1, acc.(mode := 1), home);
      } else if a == "-h" || a == "--help" {
      } else if At(a, 0) != '-' && acc.path == "" {
        HelpOnlyWhenAsked(argv, i + 1, acc.(path := Truncate(a, PATH_MAX)), home);
      }
    }
  }

  /** A missing $HOME is an error only when no directory was given, and it is
      the only way to get that error. */
  lemma {:induction false} HomeNeededOnlyWithoutDirectory(argv: seq<string>, i: nat, acc: Args, home: Option<string>)
    ensures ParseFrom(argv, i, acc, home) == Failed(HomeNotSet) ==> home.None?
    ensures home.None? && acc.path != "" ==> ParseFrom(argv, i, acc, home) != Failed(HomeNotSet)
    decreases |argv| - i
  {
    if i < |argv| {
      var a := argv[i];
      if a == "-d" {
        if i + 1 < |argv| && Atoi(argv[i + 1]) >= 0 {
          HomeNeededOnlyWithoutDirectory(argv, i + 2, acc.(maxDepth := Atoi(argv[i + 1])), home);
        }
      } else if a == "-w" {
        if i + 1 < |argv| {
          HomeNeededOnlyWithoutDirectory(argv, i + 2, acc.(maxWidth := Atoi(argv[i + 1])), home);
        }
      } else if a == "-c" || a == "--clean" {
        HomeNeededOnlyWithoutDirectory(argv, i + 1, acc.(mode := 1), home);
      } else if a == "-h" || a == "--help" {
      } else if At(a, 0) != '-' && acc.path == "" {
        HomeNeededOnlyWithoutDirectory(argv, i + 1, acc.(path := Truncate(a, PATH_MAX)), home);
      }
    }
  }

  /** With no arguments the defaults hold and the directory is $HOME. */
  lemma NoArguments(prog: string, home: string)
    ensures Parse([prog], Some(home)) == Parsed(Args(Truncate(home, PATH_MAX), -1, 10, 0))
    ensures Parse([prog], None) == Failed(HomeNotSet)
  {
  }

  /** "-d n" sets the depth limit to n; "-d -n" with n > 0 is rejected; "-d"
      last on the line is missing its argument. */
  lemma DepthOption(prog: string, n: nat, home: string)
    ensures Parse([prog, "-d", Decimal(n)], Some(home)) == Parsed(Args(Truncate(home, PATH_MAX), n, 10, 0))
    ensures n > 0 ==> Parse([prog, "-d", "-" + Decimal(n)], Some(home)) == Failed(NegativeDepth)
    ensures Parse([prog, "-d"], Some(home)) == Failed(MissingArgument("-d"))
  {
    AtoiDecimal(n);
    var argv := [prog, "-d", Decimal(n)];
    assert argv[1] == "-d" && argv[2] == Decimal(n);
    assert Parse(argv, Some(home)) == ParseFrom(argv, 3, Defaults.(maxDepth := n), Some(home));
    var neg := [prog, "-d", "-" + Decimal(n)];
    assert neg[1] == "-d" && neg[2] == "-" + Decimal(n);
  }

  /** A directory argument replaces $HOME; a second one is an error; an
      argument starting with '-' that is no option is an error. */
  lemma DirectoryArguments(prog: string, dir: string, other: string, home: Option<string>)
    requires dir != "" && dir[0] != '-' && other != "" && other[0] != '-'
    ensures Parse([prog, dir], home) == Parsed(Args(Truncate(dir, PATH_MAX), -1, 10, 0))
    ensures Parse([prog, dir, other], home) == Failed(MultipleDirectories)
    ensures Parse([prog, "-x", dir], home) == Failed(UnknownOption("-x"))
  {
    var t := Truncate(dir, PATH_MAX);
    assert t != "" by {
      assert |t| == |dir| || |t| == PATH_MAX - 1;
    }
    assert dir != "-d" && dir != "-w" && dir != "-c" && dir != "--clean" && dir != "-h" && dir != "--help" by {
      assert dir[0] != '-';
    }
    assert other != "-d" && other != "-w" && other != "-c" && other != "--clean" && other != "-h" && other != "--help" by {
      assert other[0] != '-';
    }
    assert At(dir, 0) != '-' && At(other, 0) != '-';
    var one := [prog, dir];
    assert one[1] == dir;
    assert Parse(one, home) == ParseFrom(one, 2, Defaults.(path := t), home);
    var two := [prog, dir, other];
    assert two[1] == dir && two[2] == other;
    assert Parse(two, home) == ParseFrom(two, 2, Defaults.(path := t), home);
    var bad := [prog, "-x", dir];
    assert bad[1] == "-x";
  }
}

=== FILE: paths.dfy ===
/** Path helpers of the scanner and the file system they look at.

    Paths are strings without the terminating NUL of C, and a char stands for
    a byte: the C code measures every length in bytes where this model counts
    characters, so the two agree on names whose characters are single bytes.
    Every path buffer in the program is PATH_MAX bytes, so a path that fits
    holds at most PATH_MAX - 1 of them. The real file system
    (opendir/readdir/stat) is replaced by a finite map from path to inode,
    which is all the walk ever asks of it. */
module Paths {

  /** PATH_MAX on Linux: the size in bytes, NUL included, of every path buffer. */
  const PATH_MAX: nat := 4096

  /** The name of the marker directory of a repository. */
  const GIT_DIR: string := ".git"

  datatype Option<T> = None | Some(value: T)

  /** What snprintf leaves in a buffer of `size` bytes: the longest prefix of `s`
      that fits beside the terminating NUL. */
  function Truncate(s: string, size: nat): (r: string)
    requires size > 0
    ensures r <= s
    ensures |r| < size
    ensures |s| < size ==> r == s
    ensures |s| >= size ==> |r| == size - 1
  {
    if |s| < size then s else s[..size - 1]
  }

  /** Character `i` of the C string that holds `s`: NUL at and past its end. */
  function At(s: string, i: nat): char
  {
    if i < |s| then s[i] else '\0'
  }

  /** is_dot_dir: the entry is "." or "..". It reads at most three characters,
      stopping at the first NUL, exactly as the C code does. */
  function IsDotDir(name: string): (r: bool)
    ensures '\0' !in name ==> (r <==> name == "." || name == "..")
  {
    At(name, 0) == '.' && (At(name, 1) == '\0' || (At(name, 1) == '.' && At(name, 2) == '\0'))
  }

  /** is_git_dir_name */
  predicate IsGitDirName(name: string)
  {
    name == GIT_DIR
  }

  /** build_path: "dir/name" into a buffer of `bufSize` bytes. The join succeeds
      exactly when snprintf's would-be length is below the buffer size, and then
      the result splits back into `dir`, a separator and `name`. */
  function BuildPath(dir: string, name: string, bufSize: nat): (r: Option<string>)
    ensures r.Some? <==> |dir| + 1 + |name| < bufSize
    ensures r.Some? ==> |r.value| < bufSize && |r.value| == |dir| + 1 + |name|
    ensures r.Some? ==> r.value[..|dir|] == dir && r.value[|dir|] == '/' && r.value[|dir| + 1..] == name
  {
    if |dir| + 1 + |name| < bufSize then Some(dir + "/" + name) else None
  }

  /** The d_type hint readdir gives for an entry. */
  datatype DType = DtDir | DtUnknown | DtOther

  datatype DirEnt = DirEnt(name: string, dtype: DType)

  /** What stat/opendir find at a path. A directory that cannot be opened is
      unreadable; its entries are still there for stat on the paths below it. */
  datatype Inode = Directory(readable: bool, entries: seq<DirEnt>) | NonDirectory

  type FileSystem = map<string, Inode>

  /** What readdir guarantees of the entries of one directory: no name holds a
      '/', and no name appears twice. */
  ghost predicate ProperEntries(es: seq<DirEnt>)
  {
    && (forall i :: 0 <= i < |es| ==> '/' !in es[i].name)
    && (forall i, j :: 0 <= i < j < |es| ==> es[i].name != es[j].name)
  }

  /** A file system whose every directory lists proper entries. */
  ghost predicate ProperTree(fs: FileSystem)
  {
    forall p :: p in fs && fs[p].Directory? ==> ProperEntries(fs[p].entries)
  }

  /** is_dir: stat succeeds and reports a directory. */
  predicate IsDir(fs: FileSystem, path: string)
  {
    path in fs && fs[path].Directory?
  }

  /** opendir followed by readdir to the end: the entries of a readable directory. */
  function OpenDir(fs: FileSystem, path: string): Option<seq<DirEnt>>
  {
    if path in fs && fs[path].Directory? && fs[path].readable then Some(fs[path].entries) else None
  }

  /** is_repo: "path/.git" fits in a path buffer and is a directory. A path so
      long that the marker path would not fit is never a repository. */
  function IsRepo(fs: FileSystem, path: string): (r: bool)
    ensures r <==> |path| + 1 + |GIT_DIR| < PATH_MAX && IsDir(fs, path + "/" + GIT_DIR)
  {
    match BuildPath(path, GIT_DIR, PATH_MAX)
    case None => false
    case Some(marker) => IsDir(fs, marker)
  }

  /** The part of `s` after its last '/', as strrchr finds it; all of `s` when it
      has none. The result is the longest suffix of `s` without a '/'. */
  function Basename(s: string): (r: string)
    ensures '/' !in r
    ensures |r| <= |s| && s[|s| - |r|..] == r
    ensures |r| < |s| ==> s[|s| - |r| - 1] == '/'
    decreases |s|
  {
    if s == [] then []
    else if s[|s| - 1] == '/' then []
    else
      var init := s[..|s| - 1];
      var p := Basename(init);
      assert s[|s| - |p| - 1..] == init[|init| - |p|..] + [s[|s| - 1]];
      p + [s[|s| - 1]]
  }

  /** Whatever ends in "/name", for a name without '/', has that name as its basename. */
  lemma {:induction false} BasenameAfterSlash(s: string, name: string)
    requires '/' !in name
    requires s == name || (|s| > |name| && s[|s| - |name| - 1] == '/' && s[|s| - |name|..] == name)
    ensures Basename(s) == name
  {
    var r := Basename(s);
    assert s[|s| - |r|..] == s[|s| - |name|..];
  }

  /** The basename of a path build_path produced is the name it appended. */
  lemma BasenameOfBuiltPath(dir: string, name: string, bufSize: nat)
    requires '/' !in name
    requires BuildPath(dir, name, bufSize).Some?
    ensures Basename(BuildPath(dir, name, bufSize).value) == name
  {
    var p := BuildPath(dir, name, bufSize).value;
    assert p[|p| - |name|..] == p[|dir| + 1..];
    BasenameAfterSlash(p, name);
  }

  /** The part of `s` before the '/' that precedes its basename; empty when `s`
      has no '/'. */
  function Dirname(s: string): string
  {
    var b := Basename(s);
    if |b| < |s| then s[..|s| - |b| - 1] else ""
  }

  /** The directory of a built child path is the directory it was built from. */
  lemma DirnameOfChild(dir: string, name: string)
    requires '/' !in name
    ensures Dirname(dir + "/" + name) == dir
  {
    var p := dir + "/" + name;
    assert p[|p| - |name|..] == name && p[|p| - |name| - 1] == '/';
    BasenameAfterSlash(p, name);
    assert p[..|dir|] == dir;
  }
}

=== FILE: repo_vec.dfy ===
/** The result vector (repo_vec_t): the relative paths of the repositories found,
    each beside the branch the metadata lookup reported, in two parallel arrays
    that grow together; and the display-name rule used when printing them. */
module RepoVector {
  import opened Paths

  /** sizeof(repo_info_t.branch) */
  const BRANCH_BUF: nat := 256

  /** The capacity of the first allocation; every later one doubles. */
  const INITIAL_CAP: nat := 16

  /** What get_repo_info reports for a repository: the repository could not be
      opened, it has no resolvable HEAD, or HEAD's short name. The lookup itself
      goes through libgit2 and is not part of this model. */
  datatype BranchLookup = OpenFailed | NoHead | Head(shorthand: string)

  datatype RepoInfo = RepoInfo(branch: string)

  datatype RepoRecord = RepoRecord(path: string, info: RepoInfo)

  /** The info vec_push stores: no branch at all when metadata is not collected
      (clean mode), "HEAD" when the lookup failed in either way, and otherwise the
      branch name as far as it fits in the 256-byte buffer: its first 255
      characters when it is longer. */
  function InfoFor(collect: bool, lookup: BranchLookup): (r: RepoInfo)
    ensures |r.branch| < BRANCH_BUF
    ensures !collect ==> r.branch == ""
    ensures collect && !lookup.Head? ==> r.branch == "HEAD"
    ensures collect && lookup.Head? ==> r.branch <= lookup.shorthand
    ensures collect && lookup.Head? && |lookup.shorthand| < BRANCH_BUF ==> r.branch == lookup.shorthand
    ensures collect && lookup.Head? && |lookup.shorthand| >= BRANCH_BUF ==> |r.branch| == BRANCH_BUF - 1
  {
    if !collect then RepoInfo("")
    else match lookup
      case OpenFailed => RepoInfo("HEAD")
      case NoHead => RepoInfo("HEAD")
      case Head(name) => RepoInfo(Truncate(name, BRANCH_BUF))
  }

  ghost predicate IsPowerOfTwo(n: nat)
    decreases n
  {
    n == 1 || (n > 1 && n % 2 == 0 && IsPowerOfTwo(n / 2))
  }

  /** The capacities the vector can have: none yet, or 16 times a power of two. */
  ghost predicate CapShape(cap: nat)
  {
    cap == 0 || (cap % INITIAL_CAP == 0 && IsPowerOfTwo(cap / INITIAL_CAP))
  }

  /** The capacity vec_push asks realloc for when the vector is full: it is
      strictly larger, at least 16, and keeps the 0 -> 16 -> 32 -> ... shape. */
  function NextCap(cap: nat): (r: nat)
    ensures r > cap
    ensures CapShape(cap) ==> CapShape(r) && r >= INITIAL_CAP
  {
    if cap == 0 then INITIAL_CAP
    else
      assert CapShape(cap) ==> (cap * 2) % INITIAL_CAP == 0 && (cap * 2) / INITIAL_CAP == 2 * (cap / INITIAL_CAP);
      assert CapShape(cap) ==> (2 * (cap / INITIAL_CAP)) / 2 == cap / INITIAL_CAP;
      cap * 2
  }

  /** The records held in two parallel sequences. The ensures spell out the
      comprehension pointwise, which the proofs about the vector rely on. */
  function Zip(paths: seq<string>, infos: seq<RepoInfo>): (r: seq<RepoRecord>)
    requires |paths| == |infos|
    ensures |r| == |paths|
    ensures forall i :: 0 <= i < |r| ==> r[i] == RepoRecord(paths[i], infos[i])
  {
    seq(|paths|, i requires 0 <= i < |paths| => RepoRecord(paths[i], infos[i]))
  }

  /** realloc: a block of `n` elements that starts with the old block's contents. */
  method Realloc<T(0)>(a: array<T>, n: nat) returns (b: array<T>)
    requires a.Length <= n
    ensures fresh(b) && b.Length == n
    ensures b[..a.Length] == a[..]
  {
    b := new T[n];
    var i := 0;
    while i < a.Length
      invariant 0 <= i <= a.Length
      invariant forall k :: 0 <= k < i ==> b[k] == a[k]
    {
      b[i] := a[i];
      i := i + 1;
    }
  }

  /** Whether vec_push stores its entry: strdup succeeded, and either there was
      room or both reallocs succeeded. */
  predicate Stored(count: nat, cap: nat, strdupOk: bool, itemsOk: bool, infosOk: bool)
  {
    strdupOk && (count < cap || (itemsOk && infosOk))
  }

  class RepoVec {
    var items: array<string>
    var infos: array<RepoInfo>
    var count: nat
    var cap: nat

    /** `infos` always has exactly `cap` slots; `items` has `cap` or, when the
        second realloc of a growth step failed, already the next capacity. */
    ghost predicate Valid()
      reads this
    {
      && count <= cap
      && infos.Length == cap
      && (items.Length == cap || items.Length == NextCap(cap))
      && CapShape(cap)
    }

    /** The stored entries, oldest first. */
    function Records(): seq<RepoRecord>
      reads this, items, infos
      requires Valid()
    {
      Zip(items[..count], infos[..count])
    }

    /** vec_init */
    constructor ()
      ensures Valid() && fresh(items) && fresh(infos)
      ensures Records() == [] && cap == 0
    {
      items := new string[0];
      infos := new RepoInfo[0];
      count, cap := 0, 0;
    }

    /** vec_push: append `str` with the info for `lookup`. Each of the three
        allocations may fail (the flags say which succeeded); a failure leaves
        the stored entries unchanged, a success appends exactly one entry last. */
    method Push(str: string, collect: bool, lookup: BranchLookup, strdupOk: bool, itemsOk: bool, infosOk: bool)
      requires Valid()
      modifies this, items, infos
      ensures Valid()
      ensures Records() == if Stored(old(count), old(cap), strdupOk, itemsOk, infosOk)
                           then old(Records()) + [RepoRecord(str, InfoFor(collect, lookup))]
                           else old(Records())
      ensures cap == if strdupOk && old(count) >= old(cap) && itemsOk && infosOk then NextCap(old(cap)) else old(cap)
      ensures items == old(items) || fresh(items)
      ensures infos == old(infos) || fresh(infos)
    {
      if !strdupOk {
        return;
      }
      var info := InfoFor(collect, lookup);
      if count >= cap {
        var grown := Grow(itemsOk, infosOk);
        if !grown {
          return;
        }
      }
      Store(str, info);
    }

    /** The store at the end of vec_push, once there is room: the entry goes
        into slot `count` of both arrays and the count grows. */
    method Store(str: string, info: RepoInfo)
      requires Valid() && count < cap
      modifies this, items, infos
      ensures Valid() && cap == old(cap) && items == old(items) && infos == old(infos)
      ensures Records() == old(Records()) + [RepoRecord(str, info)]
    {
      ghost var paths, infoSeq := items[..count], infos[..count];
      items[count] := str;
      infos[count] := info;
      count := count + 1;
      assert items[..count] == paths + [str];
      assert infos[..count] == infoSeq + [info];
      ZipAppend(paths, infoSeq, str, info);
    }

    /** The growth step of vec_push: realloc `items`, then `infos`, to the next
        capacity; `cap` changes only when both succeed. The entries stored so
        far are kept either way. */
    method Grow(itemsOk: bool, infosOk: bool) returns (grown: bool)
      requires Valid() && count == cap
      modifies this
      ensures Valid() && count == old(count)
      ensures grown == (itemsOk && infosOk)
      ensures cap == if grown then NextCap(old(cap)) else old(cap)
      ensures items[..count] == old(items[..count]) && infos[..count] == old(infos[..count])
      ensures items == old(items) || fresh(items)
      ensures infos == old(infos) || fresh(infos)
    {
      var newCap := NextCap(cap);
      if !itemsOk {
        return false;
      }
      var oldItems := items;
      items := Realloc(items, newCap);
      assert items[..count] == oldItems[..count] by {
        assert items[..oldItems.Length][..count] == oldItems[..][..count];
      }
      if !infosOk {
        return false;
      }
      var oldInfos := infos;
      infos := Realloc(infos, newCap);
      assert infos[..count] == oldInfos[..count] by {
        assert infos[..oldInfos.Length][..count] == oldInfos[..][..count];
      }
      cap := newCap;
      return true;
    }
  }

  lemma ZipAppend(paths: seq<string>, infos: seq<RepoInfo>, p: string, i: RepoInfo)
    requires |paths| == |infos|
    ensures Zip(paths + [p], infos + [i]) == Zip(paths, infos) + [RepoRecord(p, i)]
  {
  }

  /** The name vec_print shows for an item: its basename, and when that is longer
      than `width`, its first width - 2 characters followed by "..". A negative
      width never truncates (the comparison casts it to size_t), and for width 0
      or 1 the precision width - 2 is negative, which printf ignores, so the whole
      basename is printed before the "..". */
  function DisplayName(item: string, width: int): (r: string)
    ensures (r == Basename(item)) <==> (width < 0 || |Basename(item)| <= width)
    ensures r != Basename(item) ==> |r| >= 2 && r[|r| - 2..] == ".." && r[..|r| - 2] <= Basename(item)
    ensures r != Basename(item) && width >= 2 ==> |r| == width
    ensures r != Basename(item) && width < 2 ==> r == Basename(item) + ".."
    ensures width >= 2 ==> |r| <= width
    ensures '/' !in r
  {
    var base := Basename(item);
    ShortenAddsNoSlash(base, width);
    Shorten(base, width)
  }

  lemma ShortenAddsNoSlash(base: string, width: int)
    requires '/' !in base
    ensures '/' !in Shorten(base, width)
  {
    assert '/' != '.';
  }

  /** The truncation step of DisplayName, on the basename itself. */
  function Shorten(base: string, width: int): (r: string)
    ensures (r == base) <==> (width < 0 || |base| <= width)
    ensures r != base ==> |r| >= 2 && r[|r| - 2..] == ".." && r[..|r| - 2] <= base
    ensures r != base && width >= 2 ==> |r| == width
    ensures r != base && width < 2 ==> r == base + ".."
    ensures width >= 2 ==> |r| <= width
    ensures forall c :: c in r ==> c in base || c == '.'
  {
    if width < 0 || |base| <= width then base
    else
      var kept := if width < 2 then base else base[..width - 2];
      var r := kept + "..";
      assert |r| == |kept| + 2 && r[..|r| - 2] == kept && r[|r| - 2..] == "..";
      assert forall c :: c in r ==> c in kept || c == '.';
      r
  }
}

=== FILE: scanner.dfy ===
/** The program as a whole (main): parse the command line, canonicalise the
    directory, configure the walk from the options, scan, and hand the records
    to the printer. realpath is a parameter: None when it fails. */
module Scanner {
  import opened Paths
  import opened WorkQueue
  import opened RepoVector
  import opened Cli
  import opened Walk

  /** How main ends: with an exit status before scanning, or with the records
      to print at the width and in the mode the options asked for (status 0). */
  datatype Outcome = Exit(status: int) | Report(found: seq<RepoRecord>, width: int, mode: int)

  /** The walk's configuration for a canonical root: base_len is its length,
      the depth limit is the option's, and branch names are looked up only in
      the normal mode. */
  function ConfigFor(a: Args, can: string): Config
  {
    Config(|can|, a.maxDepth, a.mode == 0)
  }

  /** main: help exits with 0 and a parse error with 1, both before any scan;
      a directory realpath cannot resolve ends the program quietly with 0;
      otherwise the records are those of the walk from the canonical root,
      each repository once when readdir lists every name once. */
  method RunScanner(argv: seq<string>, home: Option<string>, realpath: string -> Option<string>,
                    fs: FileSystem, lookup: string -> BranchLookup) returns (r: Outcome)
    ensures Parse(argv, home).Help? ==> r == Exit(0)
    ensures Parse(argv, home).Failed? ==> r == Exit(1)
    ensures r.Exit? && r.status != 0 ==> Parse(argv, home).Failed?
    ensures Parse(argv, home).Parsed? ==>
      var a := Parse(argv, home).args;
      match realpath(a.path)
      case None => r == Exit(0)
      case Some(can) =>
        if |can| >= PATH_MAX then r == Exit(0)
        else
          var env := Env(fs, ConfigFor(a, can), lookup);
          && r.Report? && r.width == a.maxWidth && r.mode == a.mode
          && multiset(r.found) == multiset(FoundIn(env, Visits(env, Task(can, 0))))
    ensures ProperTree(fs) && r.Report? ==> RecordPathsDistinct(r.found)
  {
    var parsed := ParseArgs(argv, home);
    if parsed.Help? {
      return Exit(0);
    }
    if parsed.Failed? {
      return Exit(1);
    }
    var a := parsed.args;
    var resolved := realpath(a.path);
    if resolved.None? || |resolved.value| >= PATH_MAX {
      return Exit(0);
    }
    var can := resolved.value;
    var env := Env(fs, ConfigFor(a, can), lookup);
    var found, terminated;
    ghost var visited;
    found, terminated, visited := Scan(env, can);
    return Report(found, a.maxWidth, a.mode);
  }
}

=== FILE: walk.dfy ===
/** The directory walk: how one directory is expanded (process_directory), the
    walk it induces from the scan root, and a sequential run of the scanner --
    the root expanded by the scanner itself, then one worker looping over
    pop, expand, finish (worker_thread) -- proved to end with the latch set,
    having visited exactly the directories of the walk and recorded exactly
    the repositories found in them. */
module Walk {
  import opened Paths
  import opened WorkQueue
  import opened RepoVector

  /** The globals process_directory reads: strlen of the canonical root
      (base_len), the depth limit (-1 for none) and whether branch names are
      looked up (collect_repo_info). */
  datatype Config = Config(baseLen: nat, maxDepth: int, collect: bool)

  /** What a visit consults: the file system, the configuration, and what
      get_repo_info reports for a repository's full path. */
  datatype Env = Env(fs: FileSystem, cfg: Config, lookup: string -> BranchLookup)

  /** The depth guard in front of queue_push. */
  predicate DepthAllows(cfg: Config, depth: int)
  {
    cfg.maxDepth == -1 || depth < cfg.maxDepth
  }

  /** Whether process_directory takes the entry for a directory: readdir says
      so, or readdir does not know and stat on the child path says so. Any
      other d_type (symbolic links included) is not followed. */
  predicate IsDirectoryEntry(fs: FileSystem, child: string, e: DirEnt)
  {
    e.dtype == DtDir || (e.dtype == DtUnknown && IsDir(fs, child))
  }

  /** An entry that is neither ".", ".." nor ".git", whose child path fits in a
      path buffer, and which is a directory. */
  predicate Candidate(env: Env, dir: string, e: DirEnt)
  {
    && !IsDotDir(e.name)
    && !IsGitDirName(e.name)
    && |dir| + 1 + |e.name| < PATH_MAX
    && IsDirectoryEntry(env.fs, dir + "/" + e.name, e)
  }

  /** `p` lies strictly inside directory `dir`. */
  predicate Beneath(dir: string, p: string)
  {
    |dir| < |p| && p[..|dir|] == dir && p[|dir|] == '/'
  }

  lemma BeneathTransitive(a: string, b: string, c: string)
    requires Beneath(a, b) && Beneath(b, c)
    ensures Beneath(a, c)
  {
    assert c[..|a|] == c[..|b|][..|a|];
  }

  /** What one directory entry makes process_directory do. */
  datatype Effect = Ignore | Record(rec: RepoRecord) | Enqueue(task: Task)

  /** One iteration of process_directory's loop, in the order the C code
      tests things. */
  function EntryEffect(env: Env, dir: string, depth: int, e: DirEnt): Effect
    requires env.cfg.baseLen <= |dir|
  {
    if IsDotDir(e.name) || IsGitDirName(e.name) then Ignore
    else
      var isDirectory :=
        if e.dtype == DtDir then true
        else if e.dtype == DtUnknown then
          (match BuildPath(dir, e.name, PATH_MAX)
           case None => false
           case Some(probe) => IsDir(env.fs, probe))
        else false;
      if !isDirectory then Ignore
      else match BuildPath(dir, e.name, PATH_MAX)
        case None => Ignore
        case Some(child) =>
          if IsRepo(env.fs, child) then
            Record(RepoRecord(child[env.cfg.baseLen + 1..], InfoFor(env.cfg.collect, env.lookup(child))))
          else if DepthAllows(env.cfg, depth) then Enqueue(Task(child, depth + 1))
          else Ignore
  }

  /** The rule process_directory applies to an entry: a candidate that is a
      repository is recorded under its path with the root and the separator
      after it cut off (child + base_len + 1), and is never queued; any other
      candidate is queued one level deeper exactly when the depth guard allows;
      everything else is passed over. */
  lemma EntryEffectRule(env: Env, dir: string, depth: int, e: DirEnt)
    requires env.cfg.baseLen <= |dir|
    ensures EntryEffect(env, dir, depth, e).Record? <==>
      Candidate(env, dir, e) && IsRepo(env.fs, dir + "/" + e.name)
    ensures EntryEffect(env, dir, depth, e).Enqueue? <==>
      Candidate(env, dir, e) && !IsRepo(env.fs, dir + "/" + e.name) && DepthAllows(env.cfg, depth)
    ensures EntryEffect(env, dir, depth, e).Record? ==>
      EntryEffect(env, dir, depth, e).rec ==
        RepoRecord((dir + "/" + e.name)[env.cfg.baseLen + 1..], InfoFor(env.cfg.collect, env.lookup(dir + "/" + e.name)))
    ensures EntryEffect(env, dir, depth, e).Enqueue? ==>
      EntryEffect(env, dir, depth, e).task == Task(dir + "/" + e.name, depth + 1)
  {
  }

  /** What expanding a directory produces: repositories recorded and
      subdirectories queued, each in the order of the entries. */
  datatype Expansion = Expansion(found: seq<RepoRecord>, tasks: seq<Task>)

  /** process_directory's loop over `es`: the effects of the entries, in
      order. Every queued task is a subdirectory strictly inside `dir`, one
      level deeper, not a repository, and within PATH_MAX; nothing is queued
      where the depth guard forbids it. */
  function ExpandEntries(env: Env, dir: string, depth: int, es: seq<DirEnt>): (r: Expansion)
    requires env.cfg.baseLen <= |dir|
    ensures |r.found| + |r.tasks| <= |es|
    ensures forall t :: t in r.tasks ==>
      Beneath(dir, t.path) && |t.path| < PATH_MAX && t.depth == depth + 1 && !IsRepo(env.fs, t.path)
    ensures r.tasks != [] ==> DepthAllows(env.cfg, depth)
    decreases |es|
  {
    if es == [] then Expansion([], [])
    else
      var prev := ExpandEntries(env, dir, depth, es[..|es| - 1]);
      match EntryEffect(env, dir, depth, es[|es| - 1])
      case Ignore => prev
      case Record(rec) => Expansion(prev.found + [rec], prev.tasks)
      case Enqueue(t) =>
        EntryEffectRule(env, dir, depth, es[|es| - 1]);
        BuildPathBeneath(dir, es[|es| - 1].name);
        Expansion(prev.found, prev.tasks + [t])
  }

  /** Each entry whose effect is to record or to queue is recorded or queued. */
  lemma ExpansionTakesEveryEntry(env: Env, dir: string, depth: int, es: seq<DirEnt>)
    requires env.cfg.baseLen <= |dir|
    ensures forall i :: 0 <= i < |es| && EntryEffect(env, dir, depth, es[i]).Enqueue? ==>
      EntryEffect(env, dir, depth, es[i]).task in ExpandEntries(env, dir, depth, es).tasks
    ensures forall i :: 0 <= i < |es| && EntryEffect(env, dir, depth, es[i]).Record? ==>
      EntryEffect(env, dir, depth, es[i]).rec in ExpandEntries(env, dir, depth, es).found
  {
    forall i | 0 <= i < |es|
      ensures EntryEffect(env, dir, depth, es[i]).Enqueue? ==>
        EntryEffect(env, dir, depth, es[i]).task in ExpandEntries(env, dir, depth, es).tasks
      ensures EntryEffect(env, dir, depth, es[i]).Record? ==>
        EntryEffect(env, dir, depth, es[i]).rec in ExpandEntries(env, dir, depth, es).found
    {
      EntryTaken(env, dir, depth, es, i);
    }
  }

  lemma {:induction false} EntryTaken(env: Env, dir: string, depth: int, es: seq<DirEnt>, i: nat)
    requires env.cfg.baseLen <= |dir| && i < |es|
    ensures EntryEffect(env, dir, depth, es[i]).Enqueue? ==>
      EntryEffect(env, dir, depth, es[i]).task in ExpandEntries(env, dir, depth, es).tasks
    ensures EntryEffect(env, dir, depth, es[i]).Record? ==>
      EntryEffect(env, dir, depth, es[i]).rec in ExpandEntries(env, dir, depth, es).found
    decreases |es|
  {
    var init := es[..|es| - 1];
    if i < |init| {
      assert init[i] == es[i];
      EntryTaken(env, dir, depth, init, i);
    }
  }

  /** Nothing is recorded or queued but what some entry's effect calls for. */
  lemma {:induction false} ExpansionTakesNothingElse(env: Env, dir: string, depth: int, es: seq<DirEnt>)
    requires env.cfg.baseLen <= |dir|
    ensures forall t :: t in ExpandEntries(env, dir, depth, es).tasks ==>
      exists i :: 0 <= i < |es| && EntryEffect(env, dir, depth, es[i]) == Enqueue(t)
    ensures forall rec :: rec in ExpandEntries(env, dir, depth, es).found ==>
      exists i :: 0 <= i < |es| && EntryEffect(env, dir, depth, es[i]) == Record(rec)
    decreases |es|
  {
    if es != [] {
      var init := es[..|es| - 1];
      ExpansionTakesNothingElse(env, dir, depth, init);
      assert forall i :: 0 <= i < |init| ==> init[i] == es[i];
    }
  }

  lemma BuildPathBeneath(dir: string, name: string)
    ensures Beneath(dir, dir + "/" + name)
  {
    var p := dir + "/" + name;
    assert p[..|dir|] == dir;
  }

  /** process_directory as a whole: a directory that cannot be opened yields
      nothing; otherwise its entries are expanded in readdir order. */
  function ExpandDir(env: Env, t: Task): (r: Expansion)
    requires env.cfg.baseLen <= |t.path|
    ensures OpenDir(env.fs, t.path).None? ==> r == Expansion([], [])
    ensures forall c :: c in r.tasks ==>
      Beneath(t.path, c.path) && |c.path| < PATH_MAX && c.depth == t.depth + 1 && !IsRepo(env.fs, c.path)
    ensures r.tasks != [] ==> DepthAllows(env.cfg, t.depth)
  {
    match OpenDir(env.fs, t.path)
    case None => Expansion([], [])
    case Some(es) => ExpandEntries(env, t.path, t.depth, es)
  }

  /** The queue and records after an entry's effect is applied. */
  function TasksAfter(ts: seq<Task>, effect: Effect): seq<Task>
  {
    if effect.Enqueue? then ts + [effect.task] else ts
  }

  function RecordsAfter(rs: seq<RepoRecord>, effect: Effect): seq<RepoRecord>
  {
    if effect.Record? then rs + [effect.rec] else rs
  }

  lemma AfterAppend(ts: seq<Task>, ts': seq<Task>, rs: seq<RepoRecord>, rs': seq<RepoRecord>, effect: Effect)
    ensures TasksAfter(ts + ts', effect) == ts + TasksAfter(ts', effect)
    ensures RecordsAfter(rs + rs', effect) == rs + RecordsAfter(rs', effect)
  {
    if effect.Enqueue? {
      assert ts + ts' + [effect.task] == ts + (ts' + [effect.task]);
    }
    if effect.Record? {
      assert rs + rs' + [effect.rec] == rs + (rs' + [effect.rec]);
    }
  }

  /** process_directory, pushing into the shared queue and the result vector.
      Allocation is taken to succeed here; the queue and the vector model its
      failure on their own. */
  method ProcessDirectory(q: DirQueue, v: RepoVec, env: Env, path: string, depth: int)
    requires q.Valid() && v.Valid() && env.cfg.baseLen <= |path|
    modifies q, v, v.items, v.infos
    ensures q.Valid() && v.Valid()
    ensures q.tasks == old(q.tasks) + ExpandDir(env, Task(path, depth)).tasks
    ensures q.activeWorkers == old(q.activeWorkers) && q.shutdown == old(q.shutdown)
    ensures v.Records() == old(v.Records()) + ExpandDir(env, Task(path, depth)).found
    ensures v.items == old(v.items) || fresh(v.items)
    ensures v.infos == old(v.infos) || fresh(v.infos)
  {
    var dir := OpenDir(env.fs, path);
    if dir.None? {
      assert ExpandDir(env, Task(path, depth)) == Expansion([], []);
      return;
    }
    var entries := dir.value;
    assert ExpandDir(env, Task(path, depth)) == ExpandEntries(env, path, depth, entries);
    ghost var queued, recorded := q.tasks, v.Records();
    ghost var done := Expansion([], []);
    var i := 0;
    while i < |entries|
      invariant 0 <= i <= |entries|
      invariant done == ExpandEntries(env, path, depth, entries[..i])
      invariant q.Valid() && v.Valid()
      invariant q.tasks == queued + done.tasks
      invariant q.activeWorkers == old(q.activeWorkers) && q.shutdown == old(q.shutdown)
      invariant v.Records() == recorded + done.found
      invariant v.items == old(v.items) || fresh(v.items)
      invariant v.infos == old(v.infos) || fresh(v.infos)
    {
      ExpandOneMore(env, path, depth, entries, i);
      ghost var effect := EntryEffect(env, path, depth, entries[i]);
      AfterAppend(queued, done.tasks, recorded, done.found, effect);
      ProcessEntry(q, v, env, path, depth, entries[i]);
      done := Expansion(RecordsAfter(done.found, effect), TasksAfter(done.tasks, effect));
      i := i + 1;
    }
    assert entries[..i] == entries;
  }

  /** The body of process_directory's loop for one entry. */
  method ProcessEntry(q: DirQueue, v: RepoVec, env: Env, path: string, depth: int, ent: DirEnt)
    requires q.Valid() && v.Valid() && env.cfg.baseLen <= |path|
    modifies q, v, v.items, v.infos
    ensures q.Valid() && v.Valid()
    ensures q.tasks == TasksAfter(old(q.tasks), EntryEffect(env, path, depth, ent))
    ensures q.activeWorkers == old(q.activeWorkers) && q.shutdown == old(q.shutdown)
    ensures v.Records() == RecordsAfter(old(v.Records()), EntryEffect(env, path, depth, ent))
    ensures v.items == old(v.items) || fresh(v.items)
    ensures v.infos == old(v.infos) || fresh(v.infos)
  {
    ghost var effect := EntryEffect(env, path, depth, ent);
    if IsDotDir(ent.name) {
      assert effect == Ignore;
      return;
    }
    if IsGitDirName(ent.name) {
      assert effect == Ignore;
      return;
    }
    var isDirectory := false;
    if ent.dtype == DtDir {
      isDirectory := true;
    } else if ent.dtype == DtUnknown {
      var probe := BuildPath(path, ent.name, PATH_MAX);
      if probe.None? {
        assert effect == Ignore;
        return;
      }
      if IsDir(env.fs, probe.value) {
        isDirectory := true;
      }
    }
    if !isDirectory {
      assert effect == Ignore;
      return;
    }
    var child := BuildPath(path, ent.name, PATH_MAX);
    if child.None? {
      assert effect == Ignore;
      return;
    }
    if IsRepo(env.fs, child.value) {
      assert effect.Record? && effect.rec == RepoRecord(child.value[env.cfg.baseLen + 1..],
                                                        InfoFor(env.cfg.collect, env.lookup(child.value)));
      v.Push(child.value[env.cfg.baseLen + 1..], env.cfg.collect, env.lookup(child.value), true, true, true);
      return;
    }
    if env.cfg.maxDepth == -1 || depth < env.cfg.maxDepth {
      assert effect == Enqueue(Task(child.value, depth + 1));
      q.Push(Task(child.value, depth + 1), true);
    } else {
      assert effect == Ignore;
    }
  }

  /** One more entry of process_directory's loop: the expansion of the first
      i + 1 entries is that of the first i with entry i's effect applied. */
  lemma ExpandOneMore(env: Env, dir: string, depth: int, es: seq<DirEnt>, i: nat)
    requires env.cfg.baseLen <= |dir| && i < |es|
    ensures ExpandEntries(env, dir, depth, es[..i + 1]).tasks ==
      TasksAfter(ExpandEntries(env, dir, depth, es[..i]).tasks, EntryEffect(env, dir, depth, es[i]))
    ensures ExpandEntries(env, dir, depth, es[..i + 1]).found ==
      RecordsAfter(ExpandEntries(env, dir, depth, es[..i]).found, EntryEffect(env, dir, depth, es[i]))
  {
    assert es[..i + 1][..i] == es[..i];
  }

  /* The walk from a task: the task itself, then, in queue order, the walks
     from the subdirectories its expansion queues. Paths grow strictly and stay
     below PATH_MAX, which bounds the recursion. */

  /** Every task's path extends the root's and fits in a path buffer. */
  predicate InScope(env: Env, ts: seq<Task>)
  {
    forall t :: t in ts ==> env.cfg.baseLen <= |t.path| < PATH_MAX
  }

  lemma InScopeAppend(env: Env, a: seq<Task>, b: seq<Task>)
    ensures InScope(env, a + b) <==> InScope(env, a) && InScope(env, b)
  {
    assert forall t :: t in a + b <==> t in a || t in b;
  }

  lemma InScopeTail(env: Env, a: seq<Task>)
    requires a != [] && InScope(env, a)
    ensures InScope(env, a[1..])
  {
    assert forall t :: t in a[1..] ==> t in a;
  }

  ghost function MinPathLen(ts: seq<Task>): (r: nat)
    ensures r <= PATH_MAX
    ensures forall t :: t in ts ==> r <= |t.path|
    ensures r == PATH_MAX || exists t :: t in ts && |t.path| == r
  {
    if ts == [] then PATH_MAX
    else
      var m := MinPathLen(ts[1..]);
      assert forall t :: t in ts ==> t == ts[0] || t in ts[1..];
      if |ts[0].path| < m then |ts[0].path| else m
  }

  /** The directories a walk from `t` visits, `t` first. */
  ghost function Visits(env: Env, t: Task): (r: seq<Task>)
    requires env.cfg.baseLen <= |t.path| < PATH_MAX
    ensures InScope(env, r)
    decreases PATH_MAX - |t.path|, 0
  {
    var children := ExpandDir(env, t).tasks;
    [t] + VisitsAll(env, children)
  }

  /** The walks from each of `ts`, one after the other. */
  ghost function VisitsAll(env: Env, ts: seq<Task>): (r: seq<Task>)
    requires InScope(env, ts)
    ensures InScope(env, r)
    decreases PATH_MAX - MinPathLen(ts), 1, |ts|
  {
    if ts == [] then [] else Visits(env, ts[0]) + VisitsAll(env, ts[1..])
  }

  /** The repositories recorded while visiting `vs`, in that order. */
  ghost function FoundIn(env: Env, vs: seq<Task>): seq<RepoRecord>
    requires InScope(env, vs)
  {
    if vs == [] then [] else ExpandDir(env, vs[0]).found + FoundIn(env, vs[1..])
  }

  lemma {:induction false} VisitsAllAppend(env: Env, a: seq<Task>, b: seq<Task>)
    requires InScope(env, a) && InScope(env, b)
    ensures VisitsAll(env, a + b) == VisitsAll(env, a) + VisitsAll(env, b)
    decreases |a|
  {
    if a == [] {
      assert a + b == b;
    } else {
      assert (a + b)[0] == a[0] && (a + b)[1..] == a[1..] + b;
      InScopeTail(env, a);
      InScopeAppend(env, a, b);
      InScopeAppend(env, a[1..], b);
      VisitsAllAppend(env, a[1..], b);
    }
  }

  lemma {:induction false} FoundInAppend(env: Env, a: seq<Task>, b: seq<Task>)
    requires InScope(env, a) && InScope(env, b)
    ensures FoundIn(env, a + b) == FoundIn(env, a) + FoundIn(env, b)
    decreases |a|
  {
    if a == [] {
      assert a + b == b;
    } else {
      InScopeTail(env, a);
      FoundInAppend(env, a[1..], b);
      FoundInCons(env, a, b);
    }
  }

  /** One step of FoundInAppend: the first task's records lead those of a + b. */
  lemma FoundInCons(env: Env, a: seq<Task>, b: seq<Task>)
    requires a != [] && InScope(env, a) && InScope(env, b)
    ensures InScope(env, a[1..]) && InScope(env, a + b) && InScope(env, a[1..] + b)
    ensures FoundIn(env, a + b) == ExpandDir(env, a[0]).found + FoundIn(env, a[1..] + b)
  {
    InScopeTail(env, a);
    InScopeAppend(env, a, b);
    InScopeAppend(env, a[1..], b);
    assert (a + b)[0] == a[0] && (a + b)[1..] == a[1..] + b;
  }

  /** Everything a walk visits after its start lies inside the start directory,
      deeper than it, and is not a repository: the walk never enters a
      repository. With a depth limit that the start respects, every visited
      directory respects it too. */
  lemma {:induction false} VisitsShape(env: Env, t: Task)
    requires env.cfg.baseLen <= |t.path| < PATH_MAX
    ensures Visits(env, t)[0] == t
    ensures forall x :: x in Visits(env, t)[1..] ==>
      Beneath(t.path, x.path) && x.depth > t.depth && !IsRepo(env.fs, x.path)
    ensures 0 <= env.cfg.maxDepth && t.depth <= env.cfg.maxDepth ==>
      forall x :: x in Visits(env, t) ==> x.depth <= env.cfg.maxDepth
    decreases PATH_MAX - |t.path|, 0
  {
    var children := ExpandDir(env, t).tasks;
    assert Visits(env, t)[1..] == VisitsAll(env, children);
    VisitsAllShape(env, children, t);
  }

  lemma {:induction false} VisitsAllShape(env: Env, ts: seq<Task>, top: Task)
    requires InScope(env, ts)
    requires forall c :: c in ts ==> Beneath(top.path, c.path) && c.depth > top.depth && !IsRepo(env.fs, c.path)
    requires 0 <= env.cfg.maxDepth ==> forall c :: c in ts ==> c.depth <= env.cfg.maxDepth
    ensures forall x :: x in VisitsAll(env, ts) ==>
      Beneath(top.path, x.path) && x.depth > top.depth && !IsRepo(env.fs, x.path)
    ensures 0 <= env.cfg.maxDepth ==> forall x :: x in VisitsAll(env, ts) ==> x.depth <= env.cfg.maxDepth
    decreases PATH_MAX - MinPathLen(ts), 1, |ts|
  {
    if ts != [] {
      var c := ts[0];
      VisitsShape(env, c);
      VisitsAllShape(env, ts[1..], top);
      var vc := Visits(env, c);
      forall x | x in vc
        ensures Beneath(top.path, x.path) && x.depth > top.depth && !IsRepo(env.fs, x.path)
        ensures 0 <= env.cfg.maxDepth ==> x.depth <= env.cfg.maxDepth
      {
        if x != c {
          assert x in vc[1..] by {
            var k :| 0 <= k < |vc| && vc[k] == x;
            assert k != 0;
            assert vc[1..][k - 1] == x;
          }
          BeneathTransitive(top.path, c.path, x.path);
        }
      }
    }
  }

  /** With depth limit 0 the walk from the root at depth 0 is the root alone:
      only the root's own entries are examined, so repositories directly under
      the root are still found, and nothing deeper. */
  lemma DepthZeroStaysAtRoot(env: Env, root: Task)
    requires env.cfg.baseLen <= |root.path| < PATH_MAX
    requires env.cfg.maxDepth == 0 && root.depth == 0
    ensures Visits(env, root) == [root]
    ensures FoundIn(env, Visits(env, root)) == ExpandDir(env, root).found
  {
    assert ExpandDir(env, root).tasks == [];
    assert [root][1..] == [];
  }

  /** A recorded path is relative to the scan root: the root, a separator and
      the recorded path make up the repository's full path, and its last
      component is the entry's name -- what vec_print shows. */
  lemma RecordIsRelativeToRoot(env: Env, root: string, dir: string, depth: int, e: DirEnt)
    requires |root| == env.cfg.baseLen
    requires dir == root || Beneath(root, dir)
    requires EntryEffect(env, dir, depth, e).Record?
    ensures root + "/" + EntryEffect(env, dir, depth, e).rec.path == dir + "/" + e.name
    ensures '/' !in e.name ==> Basename(EntryEffect(env, dir, depth, e).rec.path) == e.name
  {
    EntryEffectRule(env, dir, depth, e);
    RelativeChild(root, dir, e.name);
  }

  /** Cutting the root and its separator off a child path inside the root. */
  lemma RelativeChild(root: string, dir: string, name: string)
    requires dir == root || Beneath(root, dir)
    ensures root + "/" + (dir + "/" + name)[|root| + 1..] == dir + "/" + name
    ensures '/' !in name ==> Basename((dir + "/" + name)[|root| + 1..]) == name
  {
    var child := dir + "/" + name;
    var rel := child[|root| + 1..];
    assert child[..|root|] == root by {
      if dir != root {
        assert child[..|root|] == dir[..|root|];
      }
    }
    assert child[|root|] == '/';
    assert child == child[..|root|] + [child[|root|]] + rel;
    if '/' !in name {
      if dir == root {
        assert rel == name;
      } else {
        assert rel[|rel| - |name|..] == name;
        assert rel[|rel| - |name| - 1] == '/';
      }
      BasenameAfterSlash(rel, name);
    }
  }

  /** The walk from `t` is `t` followed by the walks from its children, and so
      are the repositories found on it. */
  lemma VisitsUnfold(env: Env, t: Task)
    requires env.cfg.baseLen <= |t.path| < PATH_MAX
    ensures Visits(env, t) == [t] + VisitsAll(env, ExpandDir(env, t).tasks)
    ensures FoundIn(env, Visits(env, t)) == ExpandDir(env, t).found + FoundIn(env, VisitsAll(env, ExpandDir(env, t).tasks))
  {
    var vt := Visits(env, t);
    assert vt[0] == t && vt[1..] == VisitsAll(env, ExpandDir(env, t).tasks);
  }

  /** The queue after its head is popped and expanded. */
  function NextQueue(env: Env, ts: seq<Task>): (r: seq<Task>)
    requires ts != [] && InScope(env, ts)
    ensures InScope(env, r)
  {
    InScopeTail(env, ts);
    InScopeAppend(env, ts[1..], ExpandDir(env, ts[0]).tasks);
    ts[1..] + ExpandDir(env, ts[0]).tasks
  }

  /** Popping the head of a queue and expanding it: the walk from the queue is
      the head followed, up to order, by the walk from the queue afterwards,
      which is one directory shorter. */
  lemma {:induction false} WalkStep(env: Env, ts: seq<Task>)
    requires ts != [] && InScope(env, ts)
    ensures multiset(VisitsAll(env, ts)) == multiset{ts[0]} + multiset(VisitsAll(env, NextQueue(env, ts)))
    ensures |VisitsAll(env, NextQueue(env, ts))| < |VisitsAll(env, ts)|
  {
    var t, rest, children := ts[0], ts[1..], ExpandDir(env, ts[0]).tasks;
    InScopeTail(env, ts);
    var vr, vc := VisitsAll(env, rest), VisitsAll(env, children);
    VisitsAllAppend(env, rest, children);
    VisitsUnfold(env, t);
    assert VisitsAll(env, ts) == [t] + vc + vr;
    assert multiset([t] + vc + vr) == multiset{t} + multiset(vc) + multiset(vr);
    assert multiset(vr + vc) == multiset(vr) + multiset(vc);
  }

  /** ... and the repositories found on the walk from the queue are those found
      in the head followed, up to order, by those found on the walk from the
      queue afterwards. */
  lemma {:induction false} FoundStep(env: Env, ts: seq<Task>)
    requires ts != [] && InScope(env, ts)
    ensures multiset(FoundIn(env, VisitsAll(env, ts))) ==
      multiset(ExpandDir(env, ts[0]).found) + multiset(FoundIn(env, VisitsAll(env, NextQueue(env, ts))))
  {
    var t, rest, children := ts[0], ts[1..], ExpandDir(env, ts[0]).tasks;
    InScopeTail(env, ts);
    var vt, vr, vc := Visits(env, t), VisitsAll(env, rest), VisitsAll(env, children);
    VisitsAllAppend(env, rest, children);
    VisitsUnfold(env, t);
    assert VisitsAll(env, ts) == vt + vr;
    FoundInAppend(env, vt, vr);
    FoundInAppend(env, vr, vc);
    var ft, fr, fc := ExpandDir(env, t).found, FoundIn(env, vr), FoundIn(env, vc);
    assert FoundIn(env, VisitsAll(env, ts)) == ft + fc + fr;
    assert multiset(ft + fc + fr) == multiset(ft) + multiset(fc) + multiset(fr);
    assert multiset(fr + fc) == multiset(fr) + multiset(fc);
  }

  /** What the walk still owes: the directories visited so far and those the
      walk from the queue will visit make up the whole walk, and likewise the
      repositories recorded so far and those still to be found. */
  ghost predicate Accounted(env: Env, visited: seq<Task>, recorded: seq<RepoRecord>, queue: seq<Task>,
                            all: seq<Task>, allFound: seq<RepoRecord>)
    requires InScope(env, queue)
  {
    && multiset(visited) + multiset(VisitsAll(env, queue)) == multiset(all)
    && multiset(recorded) + multiset(FoundIn(env, VisitsAll(env, queue))) == multiset(allFound)
  }

  /** One pass of worker_thread's loop keeps the account balanced. */
  lemma AccountStep(env: Env, visited: seq<Task>, recorded: seq<RepoRecord>, queue: seq<Task>,
                    all: seq<Task>, allFound: seq<RepoRecord>)
    requires queue != [] && InScope(env, queue)
    requires Accounted(env, visited, recorded, queue, all, allFound)
    ensures Accounted(env, visited + [queue[0]], recorded + ExpandDir(env, queue[0]).found,
                      NextQueue(env, queue), all, allFound)
    ensures |VisitsAll(env, NextQueue(env, queue))| < |VisitsAll(env, queue)|
  {
    WalkStep(env, queue);
    FoundStep(env, queue);
    assert multiset(visited + [queue[0]]) == multiset(visited) + multiset{queue[0]};
    assert multiset(recorded + ExpandDir(env, queue[0]).found) ==
      multiset(recorded) + multiset(ExpandDir(env, queue[0]).found);
  }

  /** The queue state the sequential run keeps between passes: nobody holds a
      credit, and a set latch means nothing is queued. */
  predicate Idle(q: DirQueue, env: Env)
    reads q
  {
    q.Valid() && q.activeWorkers == 0 && (q.shutdown ==> q.tasks == []) && InScope(env, q.tasks)
  }

  /** One pass of worker_thread's loop: pop a task, expand it, finish it; or,
      when the pop reports Done, stop. With no other worker, Done comes exactly
      when the queue is empty, and then the latch is set. */
  method WorkerPass(q: DirQueue, v: RepoVec, env: Env) returns (done: bool, t: Task)
    requires Idle(q, env) && v.Valid()
    modifies q, v, v.items, v.infos
    ensures Idle(q, env) && v.Valid()
    ensures done <==> old(q.tasks) == []
    ensures done ==> q.shutdown && q.tasks == [] && v.Records() == old(v.Records())
    ensures !done ==> t == old(q.tasks)[0]
    ensures !done ==> q.tasks == NextQueue(env, old(q.tasks))
    ensures !done ==> v.Records() == old(v.Records()) + ExpandDir(env, t).found
    ensures v.items == old(v.items) || fresh(v.items)
    ensures v.infos == old(v.infos) || fresh(v.infos)
  {
    ghost var before := q.tasks;
    var r := q.Pop();
    if r.Done? {
      return true, Task("", 0);
    }
    t := r.task;
    ProcessDirectory(q, v, env, t.path, t.depth);
    q.FinishWork();
    assert q.tasks == NextQueue(env, before);
    return false, t;
  }

  /** worker_thread run alone until the queue reports Done: every directory the
      walk from the queue still owes is visited, and every repository it
      still owes is recorded. */
  method Drain(q: DirQueue, v: RepoVec, env: Env, ghost visited0: seq<Task>, ghost all: seq<Task>,
               ghost allFound: seq<RepoRecord>) returns (ghost visited: seq<Task>)
    requires Idle(q, env) && v.Valid()
    requires Accounted(env, visited0, v.Records(), q.tasks, all, allFound)
    modifies q, v, v.items, v.infos
    ensures Idle(q, env) && v.Valid()
    ensures q.shutdown && q.tasks == []
    ensures multiset(visited) == multiset(all) && multiset(v.Records()) == multiset(allFound)
  {
    visited := visited0;
    var done := false;
    while !done
      invariant Idle(q, env) && v.Valid()
      invariant v.items == old(v.items) || fresh(v.items)
      invariant v.infos == old(v.infos) || fresh(v.infos)
      invariant done ==> q.shutdown && q.tasks == []
      invariant Accounted(env, visited, v.Records(), q.tasks, all, allFound)
      decreases |VisitsAll(env, q.tasks)|, !done
    {
      ghost var queue, recorded := q.tasks, v.Records();
      var t;
      done, t := WorkerPass(q, v, env);
      if !done {
        AccountStep(env, visited, recorded, queue, all, allFound);
        visited := visited + [t];
      }
    }
    assert VisitsAll(env, q.tasks) == [] && FoundIn(env, []) == [];
  }

  /** A sequential run of the scanner: main expands the root while holding its
      credit and releases it; then one worker passes until the queue reports
      Done. The run ends with the latch set, having visited each directory of
      the walk from the root as often as the walk does, and having recorded
      the same repositories with the same multiplicities. */
  method Scan(env: Env, root: string) returns (found: seq<RepoRecord>, terminated: bool, ghost visited: seq<Task>)
    requires env.cfg.baseLen == |root| && |root| < PATH_MAX
    ensures terminated
    ensures multiset(visited) == multiset(Visits(env, Task(root, 0)))
    ensures multiset(found) == multiset(FoundIn(env, Visits(env, Task(root, 0))))
    ensures ProperTree(env.fs) ==> NoDup(visited) && RecordPathsDistinct(found)
  {
    var q := new DirQueue();
    var v := new RepoVec();
    var start := Task(root, 0);
    RootAccount(env, start);
    ProcessDirectory(q, v, env, root, 0);
    q.ReleaseInitialCredit();
    assert q.tasks == ExpandDir(env, start).tasks;
    assert v.Records() == ExpandDir(env, start).found;
    visited := Drain(q, v, env, [start], Visits(env, start), FoundIn(env, Visits(env, start)));
    found := v.Records();
    terminated := q.shutdown;
    ScanReportsOnce(env, root, visited, found);
  }

  /** The account once the scanner has expanded the root itself. */
  lemma RootAccount(env: Env, start: Task)
    requires env.cfg.baseLen <= |start.path| < PATH_MAX
    ensures InScope(env, ExpandDir(env, start).tasks)
    ensures Accounted(env, [start], ExpandDir(env, start).found, ExpandDir(env, start).tasks,
                      Visits(env, start), FoundIn(env, Visits(env, start)))
  {
    var all := Visits(env, start);
    SingleQueue(env, start);
    AccountStep(env, [], [], [start], all, FoundIn(env, all));
    assert [] + [start] == [start];
    assert [] + ExpandDir(env, start).found == ExpandDir(env, start).found;
  }

  /** A queue holding one task: its walk is that task's, and one pass leaves
      the task's children. */
  lemma SingleQueue(env: Env, t: Task)
    requires env.cfg.baseLen <= |t.path| < PATH_MAX
    ensures InScope(env, [t])
    ensures VisitsAll(env, [t]) == Visits(env, t)
    ensures NextQueue(env, [t]) == ExpandDir(env, t).tasks
  {
    assert [t][0] == t && [t][1..] == [];
    assert VisitsAll(env, [t]) == Visits(env, t) + VisitsAll(env, []);
  }

  /* Nothing is visited or reported twice. readdir lists each name of a
     directory once and no name holds a '/'; then the children of a directory
     lie apart from one another, so do the walks from them, and the repository
     paths recorded along the walk are pairwise different. */

  /** `p` is `dir` itself or lies inside it. */
  predicate AtOrBeneath(dir: string, p: string)
  {
    p == dir || Beneath(dir, p)
  }

  /** No task of `ts` lies at or inside another. */
  ghost predicate Separated(ts: seq<Task>)
  {
    forall i, j :: 0 <= i < |ts| && 0 <= j < |ts| && i != j ==> !AtOrBeneath(ts[i].path, ts[j].path)
  }

  ghost predicate PathsDistinct(vs: seq<Task>)
  {
    forall i, j :: 0 <= i < j < |vs| ==> vs[i].path != vs[j].path
  }

  ghost predicate RecordPathsDistinct(rs: seq<RepoRecord>)
  {
    forall i, j :: 0 <= i < j < |rs| ==> rs[i].path != rs[j].path
  }

  ghost predicate NoDup<T>(s: seq<T>)
  {
    forall i, j :: 0 <= i < j < |s| ==> s[i] != s[j]
  }

  /** Two paths that lie apart have nothing inside both of them. */
  lemma Apart(a: string, b: string, p: string, q: string)
    requires !AtOrBeneath(a, b) && !AtOrBeneath(b, a)
    requires AtOrBeneath(a, p) && AtOrBeneath(b, q)
    ensures p != q
  {
    assert p[..|a|] == a && q[..|b|] == b;
    assert |a| <= |b| ==> b[..|a|] == q[..|a|];
    assert |b| <= |a| ==> a[..|b|] == p[..|b|];
    assert |a| < |b| ==> b[|a|] == q[|a|];
    assert |b| < |a| ==> a[|b|] == p[|b|];
  }

  /** Two children of one directory under different '/'-free names lie apart. */
  lemma SiblingsApart(dir: string, a: string, b: string)
    requires a != b && '/' !in a && '/' !in b
    ensures !AtOrBeneath(dir + "/" + a, dir + "/" + b)
  {
    var p, q := dir + "/" + a, dir + "/" + b;
    assert p[|dir| + 1..] == a && q[|dir| + 1..] == b;
    assert |a| < |b| ==> q[|p|] == b[|a|] && b[|a|] in b;
  }

  lemma PathsConcat(a: seq<Task>, b: seq<Task>)
    requires PathsDistinct(a) && PathsDistinct(b)
    requires forall x, y :: x in a && y in b ==> x.path != y.path
    ensures PathsDistinct(a + b)
  {
    forall i, j | 0 <= i < j < |a + b|
      ensures (a + b)[i].path != (a + b)[j].path
    {
      if j < |a| {
        assert (a + b)[i] == a[i] && (a + b)[j] == a[j];
      } else if i < |a| {
        assert (a + b)[i] in a && (a + b)[j] in b;
      } else {
        assert (a + b)[i] == b[i - |a|] && (a + b)[j] == b[j - |a|];
      }
    }
  }

  lemma RecordPathsConcat(a: seq<RepoRecord>, b: seq<RepoRecord>)
    requires RecordPathsDistinct(a) && RecordPathsDistinct(b)
    requires forall x, y :: x in a && y in b ==> x.path != y.path
    ensures RecordPathsDistinct(a + b)
  {
    forall i, j | 0 <= i < j < |a + b|
      ensures (a + b)[i].path != (a + b)[j].path
    {
      if j < |a| {
        assert (a + b)[i] == a[i] && (a + b)[j] == a[j];
      } else if i < |a| {
        assert (a + b)[i] in a && (a + b)[j] in b;
      } else {
        assert (a + b)[i] == b[i - |a|] && (a + b)[j] == b[j - |a|];
      }
    }
  }

  /** The tasks queued for one directory are children under names of its
      entries, and lie apart from one another. */
  lemma {:induction false} ExpandEntriesSeparated(env: Env, dir: string, depth: int, es: seq<DirEnt>)
    requires env.cfg.baseLen <= |dir| && ProperEntries(es)
    ensures Separated(ExpandEntries(env, dir, depth, es).tasks)
    ensures forall t :: t in ExpandEntries(env, dir, depth, es).tasks ==>
      exists i :: 0 <= i < |es| && t.path == dir + "/" + es[i].name
    decreases |es|
  {
    if es != [] {
      var init, last := es[..|es| - 1], es[|es| - 1];
      assert forall i :: 0 <= i < |init| ==> init[i] == es[i];
      ExpandEntriesSeparated(env, dir, depth, init);
      var prev := ExpandEntries(env, dir, depth, init).tasks;
      forall u | u in prev
        ensures exists i :: 0 <= i < |es| && u.path == dir + "/" + es[i].name
      {
        var i :| 0 <= i < |init| && u.path == dir + "/" + init[i].name;
        assert u.path == dir + "/" + es[i].name;
      }
      if EntryEffect(env, dir, depth, last).Enqueue? {
        EntryEffectRule(env, dir, depth, last);
        var t := Task(dir + "/" + last.name, depth + 1);
        var ts := prev + [t];
        assert ExpandEntries(env, dir, depth, es).tasks == ts;
        forall u | u in prev
          ensures !AtOrBeneath(u.path, t.path) && !AtOrBeneath(t.path, u.path)
        {
          var i :| 0 <= i < |init| && u.path == dir + "/" + init[i].name;
          assert init[i] == es[i] && last == es[|es| - 1];
          SiblingsApart(dir, init[i].name, last.name);
          SiblingsApart(dir, last.name, init[i].name);
        }
        forall i, j | 0 <= i < |ts| && 0 <= j < |ts| && i != j
          ensures !AtOrBeneath(ts[i].path, ts[j].path)
        {
          if i < |prev| && j < |prev| {
            assert ts[i] == prev[i] && ts[j] == prev[j];
          } else if i < |prev| {
            assert ts[i] in prev && ts[j] == t;
          } else {
            assert ts[i] == t && ts[j] in prev;
          }
        }
        assert t.path == dir + "/" + es[|es| - 1].name;
      }
    }
  }

  /** The children a directory queues lie apart from one another. */
  lemma ChildrenSeparated(env: Env, t: Task)
    requires env.cfg.baseLen <= |t.path| && ProperTree(env.fs)
    ensures Separated(ExpandDir(env, t).tasks)
  {
    match OpenDir(env.fs, t.path)
    case None =>
    case Some(es) => ExpandEntriesSeparated(env, t.path, t.depth, es);
  }

  /** The walk from a directory visits each path once, all at or inside it. */
  lemma {:induction false} VisitsApart(env: Env, t: Task)
    requires ProperTree(env.fs) && env.cfg.baseLen <= |t.path| < PATH_MAX
    ensures PathsDistinct(Visits(env, t))
    ensures forall x :: x in Visits(env, t) ==> AtOrBeneath(t.path, x.path)
    decreases PATH_MAX - |t.path|, 0
  {
    var children := ExpandDir(env, t).tasks;
    ChildrenSeparated(env, t);
    VisitsAllApart(env, children);
    var rest := VisitsAll(env, children);
    VisitsUnfold(env, t);
    forall x | x in rest
      ensures Beneath(t.path, x.path)
    {
      var k :| 0 <= k < |children| && AtOrBeneath(children[k].path, x.path);
      assert children[k] in children;
      if x.path != children[k].path {
        BeneathTransitive(t.path, children[k].path, x.path);
      }
    }
    PathsConcat([t], rest);
  }

  /** The walks from tasks that lie apart visit each path once, each inside
      one of the tasks. */
  lemma {:induction false} VisitsAllApart(env: Env, ts: seq<Task>)
    requires ProperTree(env.fs) && InScope(env, ts) && Separated(ts)
    ensures PathsDistinct(VisitsAll(env, ts))
    ensures forall x :: x in VisitsAll(env, ts) ==>
      exists k :: 0 <= k < |ts| && AtOrBeneath(ts[k].path, x.path)
    decreases PATH_MAX - MinPathLen(ts), 1, |ts|
  {
    if ts != [] {
      var c, rest := ts[0], ts[1..];
      InScopeTail(env, ts);
      SeparatedTail(ts);
      VisitsApart(env, c);
      VisitsAllApart(env, rest);
      var va, vb := Visits(env, c), VisitsAll(env, rest);
      assert VisitsAll(env, ts) == va + vb;
      CoveredConcat(ts, va, vb);
      PathsConcat(va, vb);
    }
  }

  lemma SeparatedTail(ts: seq<Task>)
    requires ts != [] && Separated(ts)
    ensures Separated(ts[1..])
  {
    var rest := ts[1..];
    forall i, j | 0 <= i < |rest| && 0 <= j < |rest| && i != j
      ensures !AtOrBeneath(rest[i].path, rest[j].path)
    {
      assert rest[i] == ts[i + 1] && rest[j] == ts[j + 1];
    }
  }

  /** Visits inside the first of tasks that lie apart and visits inside the
      others have different paths, and all of them lie inside one of the tasks. */
  lemma CoveredConcat(ts: seq<Task>, va: seq<Task>, vb: seq<Task>)
    requires ts != [] && Separated(ts)
    requires forall x :: x in va ==> AtOrBeneath(ts[0].path, x.path)
    requires forall x :: x in vb ==> exists k :: 0 <= k < |ts[1..]| && AtOrBeneath(ts[1..][k].path, x.path)
    ensures forall x, y :: x in va && y in vb ==> x.path != y.path
    ensures forall x :: x in va + vb ==> exists k :: 0 <= k < |ts| && AtOrBeneath(ts[k].path, x.path)
  {
    var rest := ts[1..];
    forall x, y | x in va && y in vb
      ensures x.path != y.path
    {
      var k :| 0 <= k < |rest| && AtOrBeneath(rest[k].path, y.path);
      assert rest[k] == ts[k + 1];
      Apart(ts[0].path, rest[k].path, x.path, y.path);
    }
    forall x | x in va + vb
      ensures exists k :: 0 <= k < |ts| && AtOrBeneath(ts[k].path, x.path)
    {
      if x in va {
        assert AtOrBeneath(ts[0].path, x.path);
      } else {
        var k :| 0 <= k < |rest| && AtOrBeneath(rest[k].path, x.path);
        assert ts[k + 1] == rest[k];
      }
    }
  }

  /** Each of `rs` is recorded under the root-relative path of a child named
      by one of `es`. */
  ghost predicate RecordsNamed(root: string, dir: string, rs: seq<RepoRecord>, es: seq<DirEnt>)
  {
    forall rec :: rec in rs ==> exists i :: 0 <= i < |es| && root + "/" + rec.path == dir + "/" + es[i].name
  }

  lemma RecordsNamedExtend(root: string, dir: string, rs: seq<RepoRecord>, es: seq<DirEnt>)
    requires es != [] && RecordsNamed(root, dir, rs, es[..|es| - 1])
    ensures RecordsNamed(root, dir, rs, es)
  {
    var init := es[..|es| - 1];
    forall u | u in rs
      ensures exists i :: 0 <= i < |es| && root + "/" + u.path == dir + "/" + es[i].name
    {
      var i :| 0 <= i < |init| && root + "/" + u.path == dir + "/" + init[i].name;
      assert init[i] == es[i];
    }
  }

  /** The repositories recorded in one directory have pairwise different
      paths: each is the root-relative path of a child under one of the
      directory's names. */
  lemma {:induction false} EntriesRecordsApart(env: Env, root: string, dir: string, depth: int, es: seq<DirEnt>)
    requires |root| == env.cfg.baseLen && AtOrBeneath(root, dir) && ProperEntries(es)
    ensures RecordPathsDistinct(ExpandEntries(env, dir, depth, es).found)
    ensures RecordsNamed(root, dir, ExpandEntries(env, dir, depth, es).found, es)
    decreases |es|
  {
    if es != [] {
      var init := es[..|es| - 1];
      assert ProperEntries(init) by {
        assert forall i :: 0 <= i < |init| ==> init[i] == es[i];
      }
      EntriesRecordsApart(env, root, dir, depth, init);
      RecordsNamedExtend(root, dir, ExpandEntries(env, dir, depth, init).found, es);
      LastRecordApart(env, root, dir, depth, es);
    }
  }

  /** The step of EntriesRecordsApart for the last entry: a record it adds is
      named by it, and its name differs from every earlier entry's. */
  lemma LastRecordApart(env: Env, root: string, dir: string, depth: int, es: seq<DirEnt>)
    requires |root| == env.cfg.baseLen && AtOrBeneath(root, dir) && ProperEntries(es) && es != []
    requires RecordPathsDistinct(ExpandEntries(env, dir, depth, es[..|es| - 1]).found)
    requires RecordsNamed(root, dir, ExpandEntries(env, dir, depth, es[..|es| - 1]).found, es[..|es| - 1])
    requires RecordsNamed(root, dir, ExpandEntries(env, dir, depth, es[..|es| - 1]).found, es)
    ensures RecordPathsDistinct(ExpandEntries(env, dir, depth, es).found)
    ensures RecordsNamed(root, dir, ExpandEntries(env, dir, depth, es).found, es)
  {
    var prev := ExpandEntries(env, dir, depth, es[..|es| - 1]).found;
    var last := es[|es| - 1];
    ExpandOneMore(env, dir, depth, es, |es| - 1);
    assert es[..|es|] == es;
    var effect := EntryEffect(env, dir, depth, last);
    if effect.Record? {
      RecordIsRelativeToRoot(env, root, dir, depth, last);
      RecordAppendApart(root, dir, prev, effect.rec, es);
    }
  }

  /** Appending a record named by the last entry to records named by the
      earlier ones keeps the paths pairwise different. */
  lemma RecordAppendApart(root: string, dir: string, prev: seq<RepoRecord>, rec: RepoRecord, es: seq<DirEnt>)
    requires ProperEntries(es) && es != []
    requires RecordPathsDistinct(prev) && RecordsNamed(root, dir, prev, es[..|es| - 1])
    requires RecordsNamed(root, dir, prev, es)
    requires root + "/" + rec.path == dir + "/" + es[|es| - 1].name
    ensures RecordPathsDistinct(prev + [rec])
    ensures RecordsNamed(root, dir, prev + [rec], es)
  {
    var init, last := es[..|es| - 1], es[|es| - 1];
    forall u | u in prev
      ensures u.path != rec.path
    {
      var i :| 0 <= i < |init| && root + "/" + u.path == dir + "/" + init[i].name;
      assert init[i] == es[i];
      SiblingsApart(dir, init[i].name, last.name);
    }
    RecordPathsConcat(prev, [rec]);
    assert forall u :: u in prev + [rec] ==> u in prev || u == rec;
  }

  /** The repositories recorded in a directory have pairwise different paths,
      and the directory part of each one's full path is that directory. */
  lemma DirRecordsApart(env: Env, root: string, t: Task)
    requires ProperTree(env.fs) && |root| == env.cfg.baseLen && AtOrBeneath(root, t.path)
    ensures RecordPathsDistinct(ExpandDir(env, t).found)
    ensures forall rec :: rec in ExpandDir(env, t).found ==> Dirname(root + "/" + rec.path) == t.path
  {
    match OpenDir(env.fs, t.path)
    case None =>
    case Some(es) =>
      EntriesRecordsApart(env, root, t.path, t.depth, es);
      assert RecordsNamed(root, t.path, ExpandDir(env, t).found, es);
      forall rec | rec in ExpandDir(env, t).found
        ensures Dirname(root + "/" + rec.path) == t.path
      {
        var i :| 0 <= i < |es| && root + "/" + rec.path == t.path + "/" + es[i].name;
        DirnameOfChild(t.path, es[i].name);
      }
  }

  /** Visiting pairwise different directories inside the root records
      repositories with pairwise different paths. */
  lemma {:induction false} FoundInApart(env: Env, root: string, vs: seq<Task>)
    requires ProperTree(env.fs) && |root| == env.cfg.baseLen && InScope(env, vs)
    requires PathsDistinct(vs) && forall v :: v in vs ==> AtOrBeneath(root, v.path)
    ensures RecordPathsDistinct(FoundIn(env, vs))
    ensures forall rec :: rec in FoundIn(env, vs) ==>
      exists v :: v in vs && Dirname(root + "/" + rec.path) == v.path
    decreases |vs|
  {
    if vs != [] {
      var rest := vs[1..];
      InScopeTail(env, vs);
      assert PathsDistinct(rest) by {
        forall i, j | 0 <= i < j < |rest|
          ensures rest[i].path != rest[j].path
        {
          assert rest[i] == vs[i + 1] && rest[j] == vs[j + 1];
        }
      }
      assert forall v :: v in rest ==> v in vs;
      FoundInApart(env, root, rest);
      DirRecordsApart(env, root, vs[0]);
      var f0, fr := ExpandDir(env, vs[0]).found, FoundIn(env, rest);
      assert FoundIn(env, vs) == f0 + fr;
      forall r0, r1 | r0 in f0 && r1 in fr
        ensures r0.path != r1.path
      {
        var v :| v in rest && Dirname(root + "/" + r1.path) == v.path;
        var k :| 0 <= k < |rest| && rest[k] == v;
        assert vs[k + 1] == v;
      }
      RecordPathsConcat(f0, fr);
    }
  }

  /** On a proper tree the walk from the root visits every directory once and
      records every repository under a path of its own. */
  lemma WalkReportsOnce(env: Env, root: string)
    requires ProperTree(env.fs) && env.cfg.baseLen == |root| && |root| < PATH_MAX
    ensures PathsDistinct(Visits(env, Task(root, 0)))
    ensures RecordPathsDistinct(FoundIn(env, Visits(env, Task(root, 0))))
  {
    VisitsApart(env, Task(root, 0));
    FoundInApart(env, root, Visits(env, Task(root, 0)));
  }

  lemma {:induction false} CountAtMostOne<T>(s: seq<T>, x: T)
    requires NoDup(s)
    ensures multiset(s)[x] <= 1
    decreases |s|
  {
    if s != [] {
      var rest := s[1..];
      assert NoDup(rest) by {
        forall i, j | 0 <= i < j < |rest|
          ensures rest[i] != rest[j]
        {
          assert rest[i] == s[i + 1] && rest[j] == s[j + 1];
        }
      }
      CountAtMostOne(rest, x);
      assert s == [s[0]] + rest;
      assert s[0] !in rest by {
        forall k | 0 <= k < |rest|
          ensures rest[k] != s[0]
        {
          assert rest[k] == s[k + 1];
        }
      }
    }
  }

  lemma CountOfRepeat<T>(s: seq<T>, i: nat, j: nat)
    requires i < j < |s|
    ensures s[i] == s[j] ==> multiset(s)[s[i]] >= 2
  {
    assert s == s[..j] + s[j..];
    assert s[..j][i] == s[i] && s[j..][0] == s[j];
    assert s[i] in multiset(s[..j]) && s[j] in multiset(s[j..]);
  }

  /** A reordering of a sequence without repeats has none either. */
  lemma NoDupByMultiset<T>(a: seq<T>, b: seq<T>)
    requires multiset(a) == multiset(b) && NoDup(b)
    ensures NoDup(a)
  {
    forall i, j | 0 <= i < j < |a|
      ensures a[i] != a[j]
    {
      CountOfRepeat(a, i, j);
      CountAtMostOne(b, a[i]);
    }
  }

  /** A reordering of records with pairwise different paths keeps them so. */
  lemma RecordPathsByMultiset(a: seq<RepoRecord>, b: seq<RepoRecord>)
    requires multiset(a) == multiset(b) && RecordPathsDistinct(b)
    ensures RecordPathsDistinct(a)
  {
    assert NoDup(b);
    NoDupByMultiset(a, b);
    forall i, j | 0 <= i < j < |a|
      ensures a[i].path != a[j].path
    {
      assert a[i] in multiset(b) && a[j] in multiset(b);
      var k :| 0 <= k < |b| && b[k] == a[i];
      var l :| 0 <= l < |b| && b[l] == a[j];
    }
  }

  /** What Scan's multiset equalities give on a proper tree: each directory is
      visited once and each repository recorded once. */
  lemma ScanReportsOnce(env: Env, root: string, visited: seq<Task>, found: seq<RepoRecord>)
    requires env.cfg.baseLen == |root| && |root| < PATH_MAX
    requires multiset(visited) == multiset(Visits(env, Task(root, 0)))
    requires multiset(found) == multiset(FoundIn(env, Visits(env, Task(root, 0))))
    ensures ProperTree(env.fs) ==> NoDup(visited) && RecordPathsDistinct(found)
  {
    if ProperTree(env.fs) {
      var all := Visits(env, Task(root, 0));
      WalkReportsOnce(env, root);
      assert NoDup(all);
      NoDupByMultiset(visited, all);
      RecordPathsByMultiset(found, FoundIn(env, all));
    }
  }
}

=== FILE: work_queue.dfy ===
/** The shared queue of directories still to visit (dir_queue_t) and the
    termination latch the workers agree on.

    Every queue operation runs entirely under the queue's mutex, so each is one
    atomic step here. The queue's fields as one value are a QState; the step
    functions say what each operation does to it, and the class DirQueue does it
    in place. A pop that would wait on the condition variable returns WouldBlock
    without changing anything: the waiting thread re-runs the same step when it
    is woken. */
module WorkQueue {

  /** A directory to visit, at its depth below the scan root (dir_node_t). */
  datatype Task = Task(path: string, depth: int)

  /** The list of queued tasks, head first, and the three counters beside it. */
  datatype QState = QState(tasks: seq<Task>, active: int, pending: int, shutdown: bool)

  datatype PopResult = Popped(task: Task) | Done | WouldBlock

  datatype PopOutcome = PopOutcome(next: QState, result: PopResult)

  /** queue_init: empty, not shut down, and one active worker -- the credit the
      scanner holds while it expands the root itself. */
  const Initial: QState := QState([], 1, 0, false)

  /** pending_items counts the list. */
  predicate Counted(s: QState)
  {
    s.pending == |s.tasks|
  }

  /** queue_push: when malloc returned a node, the task joins the tail and
      pending_items grows by one; earlier tasks keep their order. When malloc
      fails nothing changes. It never touches the worker count or the latch. */
  function PushStep(s: QState, t: Task, nodeOk: bool): (r: QState)
    ensures nodeOk ==> |r.tasks| == |s.tasks| + 1 && r.tasks[..|s.tasks|] == s.tasks && r.tasks[|s.tasks|] == t
    ensures nodeOk ==> r.pending == s.pending + 1
    ensures !nodeOk ==> r == s
    ensures r.active == s.active && r.shutdown == s.shutdown
    ensures Counted(s) ==> Counted(r)
  {
    if nodeOk then s.(tasks := s.tasks + [t], pending := s.pending + 1) else s
  }

  /** queue_pop. It reports Done exactly when the latch is already set or when
      nothing is queued, nobody is working and nothing is pending -- and in the
      second case it sets the latch. It would block exactly when the list is
      empty but work is still in flight. Otherwise it hands out the head task,
      which leaves the list, and the taker becomes an active worker. */
  function PopStep(s: QState): (r: PopOutcome)
    ensures r.result.Done? <==> s.shutdown || (s.tasks == [] && s.active == 0 && s.pending == 0)
    ensures r.result.WouldBlock? <==> !s.shutdown && s.tasks == [] && (s.active != 0 || s.pending != 0)
    ensures r.result.Popped? ==> s.tasks != [] && r.result.task == s.tasks[0]
    ensures r.result.Popped? ==> r.next.tasks == s.tasks[1..] && r.next.active == s.active + 1 && r.next.pending == s.pending - 1
    ensures !r.result.Popped? ==> r.next.tasks == s.tasks && r.next.active == s.active && r.next.pending == s.pending
    ensures r.next.shutdown <==> s.shutdown || r.result.Done?
    ensures !s.shutdown && r.next.shutdown ==> r.next.tasks == [] && r.next.active == 0 && r.next.pending == 0
    ensures Counted(s) ==> Counted(r.next)
  {
    if s.tasks == [] && !s.shutdown then
      if s.active == 0 && s.pending == 0 then PopOutcome(s.(shutdown := true), Done)
      else PopOutcome(s, WouldBlock)
    else if s.shutdown then PopOutcome(s, Done)
    else PopOutcome(QState(s.tasks[1..], s.active + 1, s.pending - 1, false), Popped(s.tasks[0]))
  }

  /** queue_finish_work: one worker fewer; the latch is set exactly when that
      leaves nobody working and nothing queued (or was set already). */
  function FinishStep(s: QState): (r: QState)
    ensures r.active == s.active - 1 && r.tasks == s.tasks && r.pending == s.pending
    ensures r.shutdown <==> s.shutdown || (r.active == 0 && s.tasks == [])
    ensures Counted(s) ==> Counted(r)
  {
    s.(active := s.active - 1, shutdown := s.shutdown || (s.active - 1 == 0 && s.tasks == []))
  }

  /** The scanner giving back its initial credit after expanding the root. Unlike
      finishing a task it never sets the latch, even at zero: the next pop does. */
  function ReleaseStep(s: QState): (r: QState)
    ensures r.active == s.active - 1
    ensures r.tasks == s.tasks && r.pending == s.pending && r.shutdown == s.shutdown
  {
    s.(active := s.active - 1)
  }

  class DirQueue {
    var tasks: seq<Task>
    var activeWorkers: int
    var pendingItems: int
    var shutdown: bool

    function State(): QState
      reads this
    {
      QState(tasks, activeWorkers, pendingItems, shutdown)
    }

    predicate Valid()
      reads this
    {
      Counted(State())
    }

    /** queue_init */
    constructor ()
      ensures Valid() && State() == Initial
    {
      tasks := [];
      activeWorkers := 1;
      pendingItems := 0;
      shutdown := false;
    }

    /** queue_push; `nodeOk` says whether malloc returned a node. */
    method Push(t: Task, nodeOk: bool)
      requires Valid()
      modifies this
      ensures Valid() && State() == PushStep(old(State()), t, nodeOk)
    {
      if !nodeOk {
        return;
      }
      tasks := tasks + [t];
      pendingItems := pendingItems + 1;
    }

    /** queue_pop, one evaluation of its guarded loop. */
    method Pop() returns (r: PopResult)
      requires Valid()
      modifies this
      ensures Valid() && PopOutcome(State(), r) == PopStep(old(State()))
    {
      if tasks == [] && !shutdown {
        if activeWorkers == 0 && pendingItems == 0 {
          shutdown := true;
          return Done;
        }
        return WouldBlock;
      }
      if shutdown {
        return Done;
      }
      r := Popped(tasks[0]);
      tasks := tasks[1..];
      activeWorkers := activeWorkers + 1;
      pendingItems := pendingItems - 1;
    }

    /** queue_finish_work */
    method FinishWork()
      requires Valid()
      modifies this
      ensures Valid() && State() == FinishStep(old(State()))
    {
      activeWorkers := activeWorkers - 1;
      if activeWorkers == 0 && tasks == [] {
        shutdown := true;
      }
    }

    /** The credit release in main after it has expanded the root. */
    method ReleaseInitialCredit()
      requires Valid()
      modifies this
      ensures Valid() && State() == ReleaseStep(old(State()))
    {
      activeWorkers := activeWorkers - 1;
    }
  }

  /* The credit discipline. Every thread that may push or finish holds a credit:
     the scanner from queue_init until it releases it, and each worker from a
     successful pop until its queue_finish_work. A World pairs the queue with
     who holds credits, and the events below are the queue operations the
     threads perform, in the order the mutex serialises them. */

  datatype World = World(q: QState, mainHolds: bool, working: nat)

  /** Credits outstanding. */
  function Held(w: World): nat
  {
    (if w.mainHolds then 1 else 0) + w.working
  }

  /** The queue's counters agree with the credits, and a set latch means no
      credit is held and nothing is queued. */
  ghost predicate Protocol(w: World)
  {
    Counted(w.q) && w.q.active == Held(w) && (w.q.shutdown ==> w.q.tasks == [] && Held(w) == 0)
  }

  /** The world right after queue_init, before any worker runs. */
  const Start: World := World(Initial, true, 0)

  datatype Event = PushEv(task: Task, nodeOk: bool) | PopEv | FinishEv | ReleaseEv

  /** Who may perform an event: pushes come from process_directory, run only by
      a credit holder; finish follows a successful pop; the scanner releases
      its own credit once. Any thread may pop. */
  predicate Enabled(w: World, e: Event)
  {
    match e
    case PushEv(_, _) => Held(w) > 0
    case PopEv => true
    case FinishEv => w.working > 0
    case ReleaseEv => w.mainHolds
  }

  function Next(w: World, e: Event): World
    requires Enabled(w, e)
  {
    match e
    case PushEv(t, ok) => w.(q := PushStep(w.q, t, ok))
    case PopEv =>
      var o := PopStep(w.q);
      World(o.next, w.mainHolds, if o.result.Popped? then w.working + 1 else w.working)
    case FinishEv => World(FinishStep(w.q), w.mainHolds, w.working - 1)
    case ReleaseEv => World(ReleaseStep(w.q), false, w.working)
  }

  ghost predicate LegalRun(w: World, es: seq<Event>)
    decreases |es|
  {
    es == [] || (Enabled(w, es[0]) && LegalRun(Next(w, es[0]), es[1..]))
  }

  function Run(w: World, es: seq<Event>): World
    requires LegalRun(w, es)
    decreases |es|
  {
    if es == [] then w else Run(Next(w, es[0]), es[1..])
  }

  /** What the pops of a run return, in order. */
  function PopResults(w: World, es: seq<Event>): seq<PopResult>
    requires LegalRun(w, es)
    decreases |es|
  {
    if es == [] then []
    else (if es[0] == PopEv then [PopStep(w.q).result] else []) + PopResults(Next(w, es[0]), es[1..])
  }

  /** The start state obeys the discipline: the scanner's credit is the one
      active worker queue_init counts. */
  lemma StartObeysProtocol()
    ensures Protocol(Start) && Held(Start) == 1
  {
  }

  /** Each operation, performed by a thread allowed to, keeps the discipline. */
  lemma StepKeepsProtocol(w: World, e: Event)
    requires Protocol(w) && Enabled(w, e)
    ensures Protocol(Next(w, e))
  {
  }

  /** Under the discipline a pop says Done only when nobody holds a credit and
      nothing is queued, and it would block only while some credit is held. */
  lemma PopVerdicts(w: World)
    requires Protocol(w)
    ensures PopStep(w.q).result.Done? ==> Held(w) == 0 && w.q.tasks == []
    ensures PopStep(w.q).result.WouldBlock? ==> Held(w) > 0 && w.q.tasks == []
    ensures Held(w) == 0 && w.q.tasks == [] ==> PopStep(w.q).result.Done?
  {
  }

  lemma {:induction false} RunKeepsProtocol(w: World, es: seq<Event>)
    requires Protocol(w) && LegalRun(w, es)
    ensures Protocol(Run(w, es))
    decreases |es|
  {
    if es != [] {
      StepKeepsProtocol(w, es[0]);
      RunKeepsProtocol(Next(w, es[0]), es[1..]);
    }
  }

  /** The initial credit at work: however the workers interleave, no pop
      reports Done while the scanner still holds its credit. */
  lemma {:induction false} NoDoneBeforeRelease(w: World, es: seq<Event>)
    requires Protocol(w) && w.mainHolds && LegalRun(w, es) && ReleaseEv !in es
    ensures Done !in PopResults(w, es)
    decreases |es|
  {
    if es != [] {
      StepKeepsProtocol(w, es[0]);
      assert es[0] != ReleaseEv;
      assert ReleaseEv !in es[1..];
      NoDoneBeforeRelease(Next(w, es[0]), es[1..]);
    }
  }

  /** The latch: once shutdown is set it stays set, whatever follows, and
      every later pop reports Done. */
  lemma {:induction false} ShutdownIsLatched(w: World, es: seq<Event>)
    requires w.q.shutdown && LegalRun(w, es)
    ensures Run(w, es).q.shutdown
    ensures forall r :: r in PopResults(w, es) ==> r == Done
    decreases |es|
  {
    if es != [] {
      ShutdownIsLatched(Next(w, es[0]), es[1..]);
    }
  }

  /** From queue_init on, whatever the interleaving: the discipline holds after
      every run, so a pop can report Done only at quiescence (PopVerdicts), and
      none does before the scanner releases its credit. */
  lemma RunsFromStart(es: seq<Event>)
    requires LegalRun(Start, es)
    ensures Protocol(Run(Start, es))
    ensures ReleaseEv !in es ==> Done !in PopResults(Start, es)
  {
    StartObeysProtocol();
    RunKeepsProtocol(Start, es);
    if ReleaseEv !in es {
      NoDoneBeforeRelease(Start, es);
    }
  }
}
